=== FILE: README.md ===
# Study progress of Imba-Team/server, in Dafny

This project models the study-progress engine of the Imba-Team/server
flash-card backend and proves properties about it. In this engine, users
create modules (decks) of terms, collect other users' public modules and study
them, so that every user keeps their own status (`not_started`,
`in_progress`, `completed`) and star on every term.

The model covers:

- the v2 module service: creating and editing modules, the collection, and the
  per-user module view with its progress histogram;
- the v2 term-progress service: reading and writing a user's progress row,
  including the promote/demote state machine;
- the legacy v1 term and module services: the owner's status kept on the term
  row itself, and a histogram computed from that field;
- the slug generator used to name modules;
- the foreign-key cascades of the entities.

The database is one immutable value, `Store.Store`:

- users, as a set;
- modules, as a map;
- terms, as a sequence in table order;
- collection links, as a set of (user, module) pairs;
- progress rows, as a map keyed by (user, term).

Keying the rows this way makes the two unique constraints of the join tables
hold by construction. `Store.Valid` holds the remaining constraints: distinct
term ids, unique slugs and titles, and the foreign keys.

Every service call is a pure function from a store to either
`Ok(Step(next, response))` or `Err(error)`:

- `NotFound`, `Forbidden` and `Conflict` stand for the HTTP exceptions the
  services throw.
- `StorageError` stands for a statement the database rejects: a
  unique-constraint violation, or a value outside an enum column or a `uuid`
  column.

Identifiers the database would generate (`newId`) are parameters. So is the
clock that slug generation consults only as a last resort. Histograms are
exact reals.

The modules follow the source files:

| module | file | models |
|---|---|---|
| `Results` | `results.dfy` | errors, `Option`, `Result` |
| `Slugs` | `slugs.dfy` | `src/common/utils/sligify.ts` |
| `Store` | `store.dfy` | the entities, their constraints and cascades |
| `Transitions` | `transitions.dfy` | the v2 and v1 status rules |
| `Sync` | `sync.dfy` | `ensureProgressRecords`, `ensureUserModule` |
| `Aggregate` | `aggregate.dfy` | `calculateProgressForUser` (v2), `calculateProgress` (v1) |
| `Access` | `access.dfy` | the access gates of the v2 module service |
| `Views` | `views.dfy` | the v2 response shapes |
| `ModuleServiceV2` | `module_v2.dfy` | `src/modules/v2/module/module.service.ts` |
| `TermProgressV2` | `term_progress_v2.dfy` | `src/modules/v2/term/term-progress.service.ts` |
| `TermServiceV1` | `term_v1.dfy` | `src/modules/v1/terms/term.service.ts` |
| `ModuleServiceV1` | `module_v1.dfy` | `src/modules/v1/module/module.service.ts` |

The code behaves in three ways that a reader of the services might not expect.
The model follows the code in each case:

- An owner gets a collection link to their own module when creating it,
  when opening it (`getById`) and when writing progress on one of its terms.
  Listing their own modules and reading a term's progress create the
  owner's progress rows but no link.
- Neither the link insert nor the row insert suppresses duplicate keys.
- Removing a module from a collection deletes only the link. The user's
  progress rows stay, so adding the module back restores them
  (`ModuleServiceV2.RemoveThenAddRestores`).

## Model

| member | source | states |
|---|---|---|
| Slugs.Slugify | src/common/utils/sligify.ts:1-18 | An empty title gives `item`. The slug has only `[a-z0-9-]`, with no hyphen at either end and never two in a row. It fits `maxLength` and is non-empty whenever `maxLength > 0`. |
| Slugs.Normalize | src/common/utils/sligify.ts:5-13 | The pipeline yields a non-empty slug. It keeps exactly the lower-cased letters and the digits of the title, in order, and gives `item` when the title has none. |
| Slugs.NormalizeJoinsWords | src/common/utils/sligify.ts:5-13 | Hyphens stand exactly between words. The slug is the title's lower-cased words, its maximal runs of `[a-z0-9]`, joined by single hyphens, and `item` when there are none. |
| Slugs.SlugifyJoinsWords | src/common/utils/sligify.ts:1-18 | When the hyphen-joined words fit `maxLength`, the slug is exactly that join. |
| Slugs.SlugifyIdempotent | src/common/utils/sligify.ts:1-18 | Slugifying a slug returns it unchanged. |
| Slugs.SlugifyContent | src/common/utils/sligify.ts:5-15 | The slug's letters and digits are those of the title. Truncation can only shorten them, and an untruncated slug keeps them all. |
| Slugs.CandidateNumber | src/common/utils/sligify.ts:39-46 | The attempt number can be read back from a candidate's suffix, so distinct attempts give distinct candidates. |
| Slugs.CandidateFits | src/common/utils/sligify.ts:39-46 | A candidate fits `maxLength` whenever the suffix leaves room for one base character. |
| Slugs.FirstFreeCandidate | src/common/utils/sligify.ts:37-51 | When fewer slugs are taken than the loop bound, the result is the first free `base-i` with `i >= 2`, and every earlier candidate is taken. |
| Slugs.CreateUniqueSlug | src/common/utils/sligify.ts:25-52 | With no collection, or a base that is free, the result is the base slug. Otherwise it is the first free suffixed candidate, and it is never in the collection. |
| Store.Patched | src/modules/v2/module/module.service.ts:74 | An update writes exactly the fields present in the patch. Slug and owner are never changed. |
| Store.PatchKeepsValid | src/modules/module/module.entity.ts:21-26 | A patch whose title clashes with no other module keeps slugs and titles unique. |
| Store.DeleteTerm | src/modules/v2/term/user-term-progress.entity.ts:45-48 | Deleting a term removes it and exactly its progress rows, and keeps the constraints. |
| Store.DeleteModule | src/modules/terms/term.entity.ts:49-51 | Deleting a module removes its terms, every link to it, and every row of its terms. All other data is untouched and the constraints hold. |
| Store.DeleteUser | src/modules/module/module.entity.ts:43-45 | Deleting a user removes the modules they own, with everything those cascade to, plus the user's own links and rows. Nothing else goes. |
| Store.DeleteUserValid | src/modules/v2/module/user-module.entity.ts:26-28 | Deleting a user keeps every constraint. |
| Transitions.NextV2 | src/modules/v2/term/term-progress.service.ts:156-177 | Success raises the rank by one and failure lowers it by one, each capped at its end of the scale. |
| Transitions.NextV1 | src/modules/v1/terms/term.service.ts:176-195 | Success raises the rank by one, capped at completed. Failure always gives `in_progress`. |
| Transitions.RulesDisagreeOnFailure | src/modules/v1/terms/term.service.ts:189-195 | v1 and v2 differ exactly on a failed attempt that does not start at completed (both directions). |
| Transitions.V2FailureUndoesSuccess | src/modules/v2/term/term-progress.service.ts:159-177 | Under v2, failure undoes success below completed, and success undoes failure above not_started. |
| Transitions.ThreeSuccesses | src/modules/v2/term/term-progress.service.ts:159-167 | Three successes from not_started pass through in_progress to completed under either rule. |
| Sync.SeedRow | src/modules/v2/module/module.service.ts:339-347 | A missing row is seeded from the term's legacy fields for the owner, and from the column defaults otherwise. |
| Sync.RowOrDefault | src/modules/v2/term/term-progress.service.ts:236-244 | A reader sees the stored row, or `not_started` and unstarred when there is none. |
| Sync.SeedMissing | src/modules/v2/module/module.service.ts:337-352 | Afterwards every term has a row. Existing rows are untouched, new rows belong to the user and the given terms. When every term already has a row, nothing changes. |
| Sync.SeedMissingRows | src/modules/v2/module/module.service.ts:337-352 | When term ids are distinct, every row inserted for a term is that term's seeded row. With the seed flag it is the legacy status and star, otherwise the column defaults. |
| Sync.EnsureProgressRecords | src/modules/v2/module/module.service.ts:324-353 | The module becomes covered, meaning every one of its terms has a row for the user. Only seeded rows for its terms are added, and nothing is written for a module without terms or one already covered. |
| Sync.EnsureUserModule | src/modules/v2/module/module.service.ts:355-370 | The link is added when absent, the module becomes covered, existing rows are kept, and only rows for the module's terms are added. Each added row is the term's seeded row: the legacy status and star for the owner, the defaults for anyone else. |
| Sync.OnlyRowsAddedValid | src/modules/v2/term/user-term-progress.entity.ts:17-48 | Adding rows for an existing user and existing terms keeps the constraints. |
| Sync.EnsureOnCovered | src/modules/v2/module/module.service.ts:337-352 | On a covered module, ensuring the rows writes nothing, whatever the seed flag. |
| Sync.EnsureProgressRecordsIdempotent | src/modules/v2/module/module.service.ts:324-353 | A second `ensureProgressRecords` writes nothing. |
| Sync.EnsureUserModuleIdempotent | src/modules/v2/module/module.service.ts:355-370 | A second `ensureUserModule` writes nothing. |
| Sync.EnsureUserModuleValid | src/modules/v2/module/module.service.ts:355-370 | For an existing user and module, materialisation keeps the constraints. |
| Aggregate.Tally | src/modules/v2/module/module.service.ts:307-313 | Each counter equals the number of rows with its status, and the counters add up to the number of rows. |
| Aggregate.Fractions | src/modules/v2/module/module.service.ts:315-321 | When the counts add up to the term count, the three fractions sum to one. |
| Aggregate.RowStatuses | src/modules/v2/module/module.service.ts:298-301 | The user's rows for the terms: one per term when all have rows, none when no term has one. |
| Aggregate.RowStatusesOfAllRows | src/modules/v2/module/module.service.ts:298-312 | When every term has a row, the statuses are one per term, in term order, and each is the status stored in that term's row. |
| Aggregate.HistogramOfKeptRows | src/modules/v2/module/module.service.ts:282-322 | When every term has a row for the user, the histogram depends only on those rows. A store that keeps them unchanged gives the same histogram. |
| Aggregate.CalculateProgressForUser | src/modules/v2/module/module.service.ts:282-322 | An uncollected module, an empty one, or one without any rows gets the default histogram. Otherwise each bucket is its row count divided by the term count, and the buckets sum to one when every term has a row. |
| Aggregate.HistogramAfterEnsure | src/modules/v2/module/module.service.ts:203-212 | After the rows are ensured, every term is counted exactly once and the histogram sums to one. |
| Aggregate.CalculateProgress | src/modules/v1/module/module.service.ts:201-225 | The v1 histogram is all zeros without terms. Otherwise each bucket is the share of terms with that legacy status, and the buckets sum to one. |
| Aggregate.SeededStatuses | src/modules/v2/module/module.service.ts:339-347 | The statuses of owner-seeded rows are the terms' legacy statuses, in order. |
| Aggregate.OwnerSeedingMatchesLegacy | src/modules/v2/module/module.service.ts:203-212 | For an owner with no rows yet, the v2 histogram after seeding equals the v1 histogram of the same terms. |
| Access.AssertAccessible | src/modules/v2/module/module.service.ts:380-384 | The gate passes exactly when the module is public or owned by the caller. Otherwise it fails with "module is private". |
| Access.FindModuleOrFail | src/modules/v2/module/module.service.ts:386-394 | Returns the stored module, or module-not-found. |
| Access.EnsureOwnedModule | src/modules/v2/module/module.service.ts:372-378 | Reports not-found before not-owner, and succeeds exactly for the owner. |
| ModuleServiceV2.AttachTermProgress | src/modules/v2/module/module.service.ts:239-280 | Gives one view per term, in order. An uncollected module shows defaults. A collected one shows the caller's row, or defaults where there is none. |
| ModuleServiceV2.AttachIgnoresLegacyFields | src/modules/v2/module/module.service.ts:248-279 | The views never depend on the terms' legacy status and star. |
| ModuleServiceV2.ViewFor | src/modules/v2/module/module.service.ts:211-236 | Sets ownership, the collection flag and the term count. The term list is present exactly when requested. Defaults apply when uncollected. The histogram is `calculateProgressForUser` over the caller's rows. For a covered module it sums to one and each term view shows its row. |
| ModuleServiceV2.Materialise | src/modules/v2/module/module.service.ts:199-209 | Only a collected module with terms gets rows, and afterwards it is covered. Each missing row is created from the term's legacy fields for the owner and with the defaults for anyone else. |
| ModuleServiceV2.BuildModuleForUser | src/modules/v2/module/module.service.ts:181-237 | Fails exactly for a missing module. The collection flag defaults to ownership, and only rows are written. An uncollected module writes nothing and shows defaults. A collected one ends covered. Its histogram is `calculateProgressForUser` over the rows afterwards and sums to one, and its term views show those rows. The rows it created are the seeded ones, taken from the legacy fields only for the owner. |
| ModuleServiceV2.CollectedView | src/modules/v2/module/module.service.ts:199-236 | After materialisation, a collected module's histogram and term views read the caller's rows, and every row that was missing is the term's seeded row. |
| ModuleServiceV2.Create | src/modules/v2/module/module.service.ts:42-70 | Reports user-not-found, then a slug conflict, then a title conflict, and succeeds exactly when none applies. It stores the slugified module (private by default) and links the owner, and changes no user or term. Progress rows can only be added for the new module's terms, so none are added when no term points at the new id. The view is owned and collected, with a well-formed slug of at most 50 characters. |
| ModuleServiceV2.Insert | src/modules/v2/module/module.service.ts:59-69 | Saves the module and links the owner. The returned view is owned and collected. |
| ModuleServiceV2.CreateValid | src/modules/v2/module/module.service.ts:42-70 | A successful create keeps the constraints and writes no rows. It reports zero terms and a zero histogram. |
| ModuleServiceV2.CreateKeepsValid | src/modules/v2/module/module.service.ts:59-65 | Inserting a module with a fresh slug and title keeps the constraints, and the new module has no terms. |
| ModuleServiceV2.Update | src/modules/v2/module/module.service.ts:72-76 | Reports not-found, then not-owner, then a storage error on a title clash. Otherwise the patched module is stored with its slug kept and no link changed, and the owner's view is returned, carrying the patched title. |
| ModuleServiceV2.UpdateVisibility | src/modules/v2/module/module.service.ts:78-89 | Owner only. Only `isPrivate` changes, and the view shows the new value. |
| ModuleServiceV2.VisibilityIsUpdate | src/modules/v2/module/module.service.ts:72-89 | A visibility change equals an update whose patch carries only `isPrivate`. |
| ModuleServiceV2.UpdateValid | src/modules/v2/module/module.service.ts:72-76 | A successful update keeps the constraints. |
| ModuleServiceV2.AddToCollection | src/modules/v2/module/module.service.ts:130-137 | Reports not-found, then private. On success the link is added, the module is covered, and existing rows are kept, while new rows take the defaults. The view reports ownership as the collection flag. So a non-owner who has just added the module gets the default histogram and not-started, unstarred term views, even when rows kept from an earlier collection exist. The owner gets the histogram and term views of their rows. |
| ModuleServiceV2.RemoveFromCollection | src/modules/v2/module/module.service.ts:139-153 | Reports not-found, then private, then own-module. On success only the link is deleted, and the view is uncollected with the default histogram. |
| ModuleServiceV2.GetById | src/modules/v2/module/module.service.ts:155-179 | Succeeds exactly for a visible module. It is collected exactly when owned or linked. A collected module gets its link and rows materialised, seeded from the legacy fields for the owner. Its histogram is `calculateProgressForUser` over the rows afterwards, and each term view shows the caller's row. An uncollected one writes nothing, shows the default histogram and shows every term as not started and unstarred. |
| ModuleServiceV2.BuildModulesForUserBatch | src/modules/v2/module/module.service.ts:396-463 | Gives one view per module, in order, each collected exactly when owned or linked in the starting store. Uncollected modules show defaults and collected ones end covered. A collected view's histogram is `calculateProgressForUser` over the caller's rows at the end of the batch. Only rows are added, each one justified. Each added row is that term's seeded row: the term's own status and star for a module the caller owns, not started and unstarred otherwise. |
| ModuleServiceV2.BatchStep | src/modules/v2/module/module.service.ts:421-462 | One module's view followed by the batch of the rest gives the batch of all. |
| ModuleServiceV2.BatchStepHistograms | src/modules/v2/module/module.service.ts:421-462 | The first module's histogram is unchanged by the rest of the batch, which only adds rows, so every collected histogram is final. |
| ModuleServiceV2.BatchStepJustified | src/modules/v2/module/module.service.ts:428-434 | The rows a batch adds belong to the caller and to modules they own or collected. |
| ModuleServiceV2.BatchStepSeeded | src/modules/v2/module/module.service.ts:428-433 | The rows the first module seeds survive the rest of the batch, and the rest seeds the others, so every added row is seeded by the ownership of its own module. |
| ModuleServiceV2.FindCreatedModules | src/modules/v2/module/module.service.ts:92-98 | Every owned module is reported owned and collected, without terms. Each ends covered, no link changes, and each histogram is computed from the owner's rows. Every row the call adds carries the term's own status and star. |
| ModuleServiceV2.FindCollection | src/modules/v2/module/module.service.ts:100-108 | Every linked module is reported collected, including one its owner has since made private. Each ends covered, and each histogram is computed from the caller's rows. Every row the call adds is seeded by ownership: the term's own status and star if the caller owns the module, not started and unstarred otherwise. |
| ModuleServiceV2.SearchPublic | src/modules/v2/module/module.service.ts:110-128 | Each result is public and collected exactly when owned or linked. Uncollected results show defaults, and collected ones show the histogram of the caller's rows. Every row added is justified and seeded by ownership. |
| ModuleServiceV2.GetByIdIdempotent | src/modules/v2/module/module.service.ts:155-179 | A second read writes nothing and returns the same view. |
| ModuleServiceV2.AddThenGetById | src/modules/v2/module/module.service.ts:130-179 | After a successful add, reading the module reports it collected. |
| ModuleServiceV2.RemoveThenAddRestores | src/modules/v2/module/module.service.ts:139-153 | Removing a covered, collected module and adding it back restores the store exactly. |
| TermProgressV2.Admit | src/modules/v2/term/term-progress.service.ts:36-64 | Reports term-not-found, then module-not-found, then private, then not-in-collection. It admits exactly the owner, or a collector of a public module. Only the owner path ensures the link and the rows. |
| TermProgressV2.AdmittedRowIsBaseRow | src/modules/v2/term/term-progress.service.ts:66-77 | The row loaded or created after admission is the stored row, or else the seed the caller is entitled to. |
| TermProgressV2.Apply | src/modules/v2/term/term-progress.service.ts:79-85 | Writes exactly the fields the patch carries. |
| TermProgressV2.UpdateProgress | src/modules/v2/term/term-progress.service.ts:31-94 | Fails exactly as admission does. Otherwise the next store is the admitted store with exactly that one row set to the patched base row, and the view of that row is returned. |
| TermProgressV2.UpdateStatus | src/modules/v2/term/term-progress.service.ts:96-197 | Fails exactly as admission does. The row takes one v2 step from its base status and is saved only when the status moves. |
| TermProgressV2.UpdateStatusIsUpdateProgress | src/modules/v2/term/term-progress.service.ts:179-190 | A status step that moves equals an update that sets the new status. |
| TermProgressV2.Readable | src/modules/v2/term/term-progress.service.ts:203-219 | Reports term-not-found, then module-not-found, then private. It returns the term exactly when its module is visible. |
| TermProgressV2.GetProgress | src/modules/v2/term/term-progress.service.ts:199-245 | Fails exactly as the read checks do, and only rows are added. An owner or collector reads the row. If it was missing, the whole module is covered first, with every missing row seeded. Anyone else, or anyone who has a row, reads it or the defaults, and nothing is written. |
| TermProgressV2.ReadWithRowEnsuresNothing | src/modules/v2/term/term-progress.service.ts:221-234 | An example: an owner who has the row of the term read writes nothing, and the module's other terms stay without rows. |
| TermProgressV2.GetProgressIdempotent | src/modules/v2/term/term-progress.service.ts:231-234 | A read that materialised rows writes nothing when repeated, and returns the same view. |
| TermProgressV2.UpdateThenGet | src/modules/v2/term/term-progress.service.ts:31-94 | Reading after a successful write returns what was written, and writes nothing. |
| TermProgressV2.SuccessThenFailureRestores | src/modules/v2/term/term-progress.service.ts:159-177 | A success followed by a failure brings the caller's status and star back to the base row, unless the base was completed. |
| TermServiceV1.ParseStatus | src/modules/terms/term.entity.ts:31-36 | Accepts exactly the three spellings of the enum column. |
| TermServiceV1.ParseStatusName | src/modules/terms/term.entity.ts:31-36 | Parsing a status's spelling returns that status. |
| TermServiceV1.Create | src/modules/v1/terms/term.service.ts:26-78 | Reports module-not-found, then not-owner, then a duplicate term, then a storage error for a status outside the enum. On success it appends the term with the column defaults, not_started and starred, and keeps the constraints. |
| TermServiceV1.AppendKeepsValid | src/modules/v1/terms/term.service.ts:72-73 | Appending a term with a fresh id to an existing module keeps the constraints. |
| TermServiceV1.FindAll | src/modules/v1/terms/term.service.ts:80-102 | Gives exactly the matching terms, where an empty or absent field matches everything, together with their count. It fails with a storage error exactly when the status is outside the enum or the module id is not uuid text (the `moduleId` column is `uuid`, src/modules/terms/term.entity.ts:46-47). |
| TermServiceV1.UuidTextLength | src/modules/terms/term.entity.ts:46-47 | Text the `uuid` column accepts is 32 to 41 characters long. |
| TermServiceV1.MalformedModuleFilter | src/modules/v1/terms/term.service.ts:94-98 | A module filter such as `abc` makes the query fail rather than match nothing. |
| TermServiceV1.StandardFormIsUuid | src/modules/terms/term.entity.ts:46-47 | Any eight hex groups in the standard 8-4-4-4-12 layout are accepted uuid text. |
| TermServiceV1.FindById | src/modules/v1/terms/term.service.ts:104-114 | Returns the term with the id, or term-not-found. |
| TermServiceV1.OwnedTerm | src/modules/v1/terms/term.service.ts:122-140 | Reports not-found, then not-owner. It succeeds exactly for the owner of the term's module. |
| TermServiceV1.PatchTerm | src/modules/v1/terms/term.service.ts:142 | Writes exactly the fields the patch carries, and keeps the id and module. |
| TermServiceV1.Replace | src/modules/v1/terms/term.service.ts:142 | The row with the id is replaced in place, and no other row changes. |
| TermServiceV1.Update | src/modules/v1/terms/term.service.ts:116-146 | Owner only. The patched term replaces its row and is returned. |
| TermServiceV1.UpdateStatus | src/modules/v1/terms/term.service.ts:148-210 | Owner only. The legacy status takes one v1 step and is saved only when it moves. No progress row or link changes. |
| TermServiceV1.UpdateStatusIsUpdate | src/modules/v1/terms/term.service.ts:197-209 | A status step equals an update that sets the resulting status. |
| TermServiceV1.Delete | src/modules/v1/terms/term.service.ts:212-237 | Owner only. The term and every user's row for it are removed. |
| TermServiceV1.CreateThenFind | src/modules/v1/terms/term.service.ts:72-77 | A created term is found by its id. |
| TermServiceV1.DeleteThenFind | src/modules/v1/terms/term.service.ts:234-236 | A deleted term is no longer found. |
| ModuleServiceV1.Create | src/modules/v1/module/module.service.ts:29-77 | Reports user-not-found, then a per-owner title conflict. Any slug clash is a storage error, even with the caller's own module (`Bio!` and `Bio?` both give `bio`). So is a title used by another owner. On success the module is stored without any link. |
| ModuleServiceV1.CreateChecked | src/modules/v1/module/module.service.ts:45-62 | Any title already in use is reported as a conflict before the insert. Otherwise the result is that of `create`. |
| ModuleServiceV1.CrossOwnerTitleIsStorageError | src/modules/v1/module/module.service.ts:45-72 | A second user's module with an existing title passes the check and fails in the database. The checked version reports a conflict. |
| ModuleServiceV1.CreateCheckedTitleConflict | src/modules/v1/module/module.service.ts:45-62 | With the checked version, a duplicate title is never a storage error. |
| ModuleServiceV1.CreateValid | src/modules/v1/module/module.service.ts:64-76 | A successful create keeps the constraints and links nobody. |
| ModuleServiceV1.FindById | src/modules/v1/module/module.service.ts:109-130 | Returns the module, exactly its terms, and their legacy histogram, which sums to one when there are terms. |
| ModuleServiceV1.FindBySlug | src/modules/v1/module/module.service.ts:132-153 | Fails exactly when no module has the slug. Otherwise it is the `findById` of the one module that has it. |
| ModuleServiceV1.FindByUserId | src/modules/v1/module/module.service.ts:79-96 | Returns exactly the caller's modules, each with its legacy histogram. |
| ModuleServiceV1.FindAll | src/modules/v1/module/module.service.ts:98-107 | Returns every module with its term count. |
| ModuleServiceV1.Update | src/modules/v1/module/module.service.ts:155-182 | Reports not-found, then not-owner, then a storage error on a title clash. Otherwise the patched module is stored and read back with its slug kept. |
| ModuleServiceV1.Delete | src/modules/v1/module/module.service.ts:184-199 | Reports not-found, then not-owner. The module, its terms, its links and their rows are removed. |

## Left out

- Authentication, guards, controllers, logging and mail are not modelled. They decide who the caller is, and the model takes the caller's id as given.
- Concurrency is not modelled. The batch builder runs its per-module work in parallel, and two concurrent inserts of the same link or row would violate a unique constraint. The model runs the batch sequentially, so no such race occurs.
- Owner name and profile picture in the v2 view are not modelled. They are a plain read of the user table.
- ModuleServiceV2.FindCreatedModules: the result list is not derived from the store. The modules a query returns, and their order, arrive as an enumeration `ids`, which the requires relate to the store.
- ModuleServiceV2.FindCollection: the result list is not derived from the store. The modules a query returns, and their order, arrive as an enumeration `ids`, which the requires relate to the store.
- ModuleServiceV2.SearchPublic: the search query is not modelled. The modules it matches arrive as `ids`, so the case-insensitive `LIKE` over title and description is outside the model, and only publicness is required of them.
- Slugs.Slugify: only ASCII text is modelled. Unicode normalisation and accent stripping are left out, so a non-ASCII character counts as a non-alphanumeric one.
- Slugs.CreateUniqueSlug: `Date.now()` is not modelled. The clock is a parameter `now`, and the result is pinned down only when fewer slugs are taken than the loop bound.
- ModuleServiceV2.Create: one ordering detail is simplified. When both the slug and the title are already used, by two different modules, the single query may return either row, so the service reports either conflict. The model always reports the slug conflict.
- ModuleServiceV2.Update: the update DTO is not part of this model. Its shape is assumed to be optional title, description and privacy (`Store.ModulePatch`).
- ModuleServiceV1.Update: the v1 module update DTO is not part of this model either. The same `Store.ModulePatch` shape is assumed.
- TermServiceV1.Update: the update DTO is not part of this model. Its shape is assumed to be optional term, definition, status and star, with the status already one of the three values.
- ModuleServiceV1.Create: the v1 create DTO is not part of this model. Its fields are assumed to be title, optional description and optional privacy.
- Store.Module: the description is optional, so the model assumes a nullable column. The module entity in src/modules/module/module.entity.ts:28-30 declares it NOT NULL, and the schema is synchronised from the entities. Both services import src/modules/v1/module/module.entity.ts, which is not part of this model. If that entity matches the one above, a create without a description fails in the database.
- TermServiceV1.OwnedTerm: callers must supply a store where every term's module exists. This is the term table's foreign key, which the owner checks dereference without testing it.
- Store.DeleteUser: it models only the cascade of a user deletion. No service of the core deletes users.
- Identifiers are opaque keys in their stored form. No controller validates a route id as a uuid, so in the source an id that is not uuid text makes PostgreSQL reject the query (a server error) rather than report not-found, and a non-standard spelling of a uuid (upper case, braces, no hyphens) matches the stored id. The model compares ids as strings and reports not-found. `TermServiceV1.FindAll` is the one exception: its module filter's malformed case is modelled.
- Generated identifiers are not modelled. Module and term ids are parameters (`newId`), required to be fresh.
- Floating-point division is not modelled. Histograms are exact reals, so rounding is not reflected.

## Findings

| source | as written | input that shows it | evidently intended | confidence | as-written member | corrected member |
|---|---|---|---|---|---|---|
| src/modules/v1/module/module.service.ts:45-62 | The duplicate check looks for the title only among the caller's own modules, but `module.entity.ts:25-26` makes the title unique across all modules. A title used by another user therefore passes the check, and the insert fails in the database (a server error). | alice owns module `m1` titled "Biology"; bob creates a module titled "Biology" | a conflict reported before the insert, as v2 does | medium, not executed | ModuleServiceV1.CrossOwnerTitleIsStorageError | ModuleServiceV1.CreateChecked |

=== FILE: access.dfy ===
/** The access and ownership gates of the v2 module service. */
module Access {
  import opened Results
  import opened Store

  /** A module is visible to a user unless it is private and the user does
      not own it. */
  predicate Visible(mod: Module, u: UserId) {
    !mod.isPrivate || mod.ownerId == u
  }

  /** `assertAccessible(module, u)`. */
  function AssertAccessible(mod: Module, u: UserId): (g: Gate)
    ensures g.Pass? <==> Visible(mod, u)
    ensures g.Fail? ==> g.error == Forbidden(ModulePrivate)
  {
    if mod.isPrivate && mod.ownerId != u then Fail(Forbidden(ModulePrivate)) else Pass
  }

  /** `findModuleOrFail(id)`. */
  function FindModuleOrFail(s: Store, id: ModuleId): (r: Result<Module>)
    ensures r.Ok? <==> id in s.modules
    ensures r.Ok? ==> r.value == s.modules[id]
    ensures r.Err? ==> r.error == NotFound(ModuleEntity)
  {
    if id in s.modules then Ok(s.modules[id]) else Err(NotFound(ModuleEntity))
  }

  /** `ensureOwnedModule(u, id)`: the module must exist (checked first) and
      be owned by the caller. */
  function EnsureOwnedModule(s: Store, u: UserId, id: ModuleId): (r: Result<Module>)
    ensures id !in s.modules ==> r == Err(NotFound(ModuleEntity))
    ensures id in s.modules && s.modules[id].ownerId != u ==> r == Err(Forbidden(NotOwner))
    ensures r.Ok? <==> id in s.modules && s.modules[id].ownerId == u
    ensures r.Ok? ==> r.value == s.modules[id]
  {
    var mod :- FindModuleOrFail(s, id);
    if mod.ownerId != u then Err(Forbidden(NotOwner)) else Ok(mod)
  }

  /** The caller may hold progress rows for module `m`: they own it or have
      it in their collection. */
  predicate MayStudy(s: Store, u: UserId, m: ModuleId) {
    m in s.modules && (s.modules[m].ownerId == u || (u, m) in s.links)
  }

  /** Every row `r` has that `s` lacks belongs to `u` and to a term of a
      module `u` owns or has collected (in `r`). */
  predicate NewRowsJustified(s: Store, r: Store, u: UserId) {
    forall k :: k in r.progress && k !in s.progress ==>
      k.0 == u && exists t :: t in r.terms && t.id == k.1 && MayStudy(r, u, t.moduleId)
  }
}

=== FILE: aggregate.dfy ===
/** The three-bucket progress histogram of a module: v2 computes it from one
    user's progress rows (`calculateProgressForUser`), v1 from the terms'
    legacy fields (`calculateProgress`). Fractions are exact reals. */
module Aggregate {
  import opened Store
  import opened Sync

  datatype Counts = Counts(notStarted: nat, inProgress: nat, completed: nat)

  datatype Histogram = Histogram(notStarted: real, inProgress: real, completed: real)

  function Sum(h: Histogram): real {
    h.notStarted + h.inProgress + h.completed
  }

  /** How many entries of `xs` are `st`, as an independent reference for
      the tally below. */
  function Occurrences(xs: seq<Status>, st: Status): nat {
    multiset(xs)[st]
  }

  /** The `reduce` that bumps one counter per status. */
  function Tally(xs: seq<Status>): (c: Counts)
    ensures c.notStarted == Occurrences(xs, NotStarted)
    ensures c.inProgress == Occurrences(xs, InProgress)
    ensures c.completed == Occurrences(xs, Completed)
    ensures c.notStarted + c.inProgress + c.completed == |xs|
  {
    if xs == [] then Counts(0, 0, 0)
    else
      var c := Tally(xs[..|xs| - 1]);
      var last := xs[|xs| - 1];
      assert xs == xs[..|xs| - 1] + [last];
      match last
      case NotStarted => c.(notStarted := c.notStarted + 1)
      case InProgress => c.(inProgress := c.inProgress + 1)
      case Completed => c.(completed := c.completed + 1)
  }

  /** Each bucket divided by the term count. */
  function Fractions(c: Counts, total: nat): (h: Histogram)
    requires total > 0
    ensures c.notStarted + c.inProgress + c.completed == total ==> Sum(h) == 1.0
  {
    var n := total as real;
    var h := Histogram(c.notStarted as real / n, c.inProgress as real / n, c.completed as real / n);
    assert c.notStarted + c.inProgress + c.completed == total ==> Sum(h) == 1.0 by {
      if c.notStarted + c.inProgress + c.completed == total {
        DivisionAdds(c.notStarted as real, c.inProgress as real, c.completed as real, n);
      }
    }
    h
  }

  lemma DivisionAdds(a: real, b: real, c: real, n: real)
    requires n > 0.0 && a + b + c == n
    ensures a / n + b / n + c / n == 1.0
  {
    assert a / n + b / n + c / n == (a + b + c) / n;
  }

  // -----------------------------------------------------------------------
  // v2: calculateProgressForUser
  // -----------------------------------------------------------------------

  /** The statuses of `u`'s rows for `terms` (the `find` by user and term
      ids), one per term that has a row. */
  function RowStatuses(progress: map<(UserId, TermId), Progress>, u: UserId, terms: seq<Term>): (xs: seq<Status>)
    ensures |xs| <= |terms|
    ensures (forall t :: t in terms ==> (u, t.id) in progress) ==> |xs| == |terms|
    ensures (forall t :: t in terms ==> (u, t.id) !in progress) ==> xs == []
  {
    if terms == [] then []
    else
      TermIdsCons(terms);
      var head := if (u, terms[0].id) in progress then [progress[(u, terms[0].id)].status] else [];
      head + RowStatuses(progress, u, terms[1..])
  }

  /** When every term has a row, the statuses are those rows' statuses, one
      per term in term order. */
  lemma {:induction false} RowStatusesOfAllRows(progress: map<(UserId, TermId), Progress>, u: UserId, terms: seq<Term>)
    requires forall t :: t in terms ==> (u, t.id) in progress
    ensures |RowStatuses(progress, u, terms)| == |terms|
    ensures forall i :: 0 <= i < |terms| ==> RowStatuses(progress, u, terms)[i] == progress[(u, terms[i].id)].status
    decreases |terms|
  {
    if terms != [] {
      TermIdsCons(terms);
      RowStatusesOfAllRows(progress, u, terms[1..]);
      var xs := RowStatuses(progress, u, terms);
      var rest := RowStatuses(progress, u, terms[1..]);
      assert xs == [progress[(u, terms[0].id)].status] + rest;
      forall i | 1 <= i < |terms| ensures xs[i] == progress[(u, terms[i].id)].status {
        assert terms[1..][i - 1] == terms[i];
      }
    }
  }

  /** The histogram of a module whose terms all have a row for `u` depends
      only on those rows: a store that keeps them gives the same histogram. */
  lemma {:induction false} HistogramOfKeptRows(a: Store, b: Store, u: UserId, terms: seq<Term>, isCollected: bool)
    requires DistinctIds(terms)
    requires forall t :: t in terms ==> (u, t.id) in a.progress
    requires forall k :: k in a.progress ==> k in b.progress && b.progress[k] == a.progress[k]
    ensures CalculateProgressForUser(a, u, terms, isCollected) == CalculateProgressForUser(b, u, terms, isCollected)
  {
    var xs := RowStatuses(a.progress, u, terms);
    var ys := RowStatuses(b.progress, u, terms);
    RowStatusesOfAllRows(a.progress, u, terms);
    RowStatusesOfAllRows(b.progress, u, terms);
    assert forall i :: 0 <= i < |terms| ==> xs[i] == ys[i];
    assert xs == ys;
  }

  /** `{not_started: 1, 0, 0}` for a module with terms, all zeros without. */
  function DefaultHistogram(termCount: nat): Histogram {
    Histogram(if termCount > 0 then 1.0 else 0.0, 0.0, 0.0)
  }

  /** `calculateProgressForUser(u, m, terms, isCollected)`. `terms` are the
      module's terms, distinct rows of the term table. */
  function CalculateProgressForUser(s: Store, u: UserId, terms: seq<Term>, isCollected: bool): (h: Histogram)
    requires DistinctIds(terms)
    ensures !isCollected || terms == [] ==> h == DefaultHistogram(|terms|)
    ensures (forall t :: t in terms ==> (u, t.id) !in s.progress) ==> h == DefaultHistogram(|terms|)
    ensures isCollected && terms != [] && RowStatuses(s.progress, u, terms) != [] ==>
              var xs := RowStatuses(s.progress, u, terms);
              && h.notStarted == Occurrences(xs, NotStarted) as real / |terms| as real
              && h.inProgress == Occurrences(xs, InProgress) as real / |terms| as real
              && h.completed == Occurrences(xs, Completed) as real / |terms| as real
    ensures isCollected && (forall t :: t in terms ==> (u, t.id) in s.progress) ==>
              Sum(h) == if terms == [] then 0.0 else 1.0
  {
    if !isCollected || terms == [] then DefaultHistogram(|terms|)
    else
      var rows := RowStatuses(s.progress, u, terms);
      if rows == [] then DefaultHistogram(|terms|)
      else
        Fractions(Tally(rows), |terms|)
  }

  /** After `ensureProgressRecords`, a collected module's buckets count every
      term exactly once: the counts add up to the term count and the
      fractions to one. */
  lemma {:induction false} HistogramAfterEnsure(s: Store, u: UserId, m: ModuleId, seed: bool)
    requires DistinctIds(s.terms)
    requires TermsOf(s.terms, m) != []
    ensures var s' := EnsureProgressRecords(s, u, m, seed);
            var xs := RowStatuses(s'.progress, u, TermsOf(s.terms, m));
            && Occurrences(xs, NotStarted) + Occurrences(xs, InProgress) + Occurrences(xs, Completed)
                 == |TermsOf(s.terms, m)|
            && Sum(CalculateProgressForUser(s', u, TermsOf(s.terms, m), true)) == 1.0
  {
    var s' := EnsureProgressRecords(s, u, m, seed);
    var xs := RowStatuses(s'.progress, u, TermsOf(s.terms, m));
    var c := Tally(xs);
  }

  // -----------------------------------------------------------------------
  // v1: calculateProgress
  // -----------------------------------------------------------------------

  function LegacyStatuses(terms: seq<Term>): (xs: seq<Status>)
    ensures |xs| == |terms|
    ensures forall i :: 0 <= i < |terms| ==> xs[i] == terms[i].status
  {
    seq(|terms|, i requires 0 <= i < |terms| => terms[i].status)
  }

  /** `calculateProgress(terms)` over the legacy per-term status. */
  function CalculateProgress(terms: seq<Term>): (h: Histogram)
    ensures terms == [] ==> h == Histogram(0.0, 0.0, 0.0)
    ensures terms != [] ==>
              && h.notStarted == Occurrences(LegacyStatuses(terms), NotStarted) as real / |terms| as real
              && h.inProgress == Occurrences(LegacyStatuses(terms), InProgress) as real / |terms| as real
              && h.completed == Occurrences(LegacyStatuses(terms), Completed) as real / |terms| as real
    ensures terms != [] ==> Sum(h) == 1.0
  {
    if terms == [] then Histogram(0.0, 0.0, 0.0)
    else Fractions(Tally(LegacyStatuses(terms)), |terms|)
  }

  /** The statuses of freshly owner-seeded rows are the legacy statuses. */
  lemma {:induction false} SeededStatuses(progress: map<(UserId, TermId), Progress>, u: UserId, terms: seq<Term>)
    requires forall t :: t in terms ==> (u, t.id) in progress && progress[(u, t.id)] == SeedRow(t, true)
    ensures RowStatuses(progress, u, terms) == LegacyStatuses(terms)
    decreases |terms|
  {
    if terms != [] {
      TermIdsCons(terms);
      SeededStatuses(progress, u, terms[1..]);
      assert RowStatuses(progress, u, terms) == [terms[0].status] + RowStatuses(progress, u, terms[1..]);
      LegacyCons(terms);
    }
  }

  lemma LegacyCons(terms: seq<Term>)
    requires terms != []
    ensures LegacyStatuses(terms) == [terms[0].status] + LegacyStatuses(terms[1..])
  {
    var a := LegacyStatuses(terms);
    var b := [terms[0].status] + LegacyStatuses(terms[1..]);
    assert forall i :: 0 <= i < |a| ==> a[i] == b[i] by {
      forall i | 0 <= i < |a| ensures a[i] == b[i] {
        if i > 0 {
          assert terms[1..][i - 1] == terms[i];
        }
      }
    }
  }

  /** For an owner who had no rows yet, seeding from the legacy fields makes
      the v2 histogram equal to the v1 histogram of the same terms. */
  lemma OwnerSeedingMatchesLegacy(s: Store, u: UserId, m: ModuleId)
    requires DistinctIds(s.terms)
    requires forall t :: t in TermsOf(s.terms, m) ==> (u, t.id) !in s.progress
    ensures CalculateProgressForUser(EnsureProgressRecords(s, u, m, true), u, TermsOf(s.terms, m), true)
            == CalculateProgress(TermsOf(s.terms, m))
  {
    var s' := EnsureProgressRecords(s, u, m, true);
    var terms := TermsOf(s.terms, m);
    SeededStatuses(s'.progress, u, terms);
  }
}

=== FILE: module_v1.dfy ===
/** The v1 module service (src/modules/v1/module/module.service.ts): owner
    CRUD on modules, with the histogram computed from the terms' legacy
    fields. */
module ModuleServiceV1 {
  import opened Results
  import opened Store
  import opened Slugs
  import opened Aggregate

  /** A module as v1 returns it: the row, its terms and their histogram. */
  datatype ModuleWithProgress = ModuleWithProgress(
    id: ModuleId,
    row: Module,
    terms: seq<Term>,
    progress: Histogram)

  predicate OwnerHasTitle(ms: map<ModuleId, Module>, u: UserId, title: string) {
    exists id :: id in ms && ms[id].ownerId == u && ms[id].title == title
  }

  /** `create(u, dto)` as written: the duplicate check looks only at the
      caller's own modules, while the title and slug columns are unique
      across all modules, so a clash with another user's module reaches the
      database and fails there. No collection link is created. */
  function Create(s: Store, u: UserId, title: string, description: Option<string>, isPrivate: Option<bool>,
                  newId: ModuleId)
    : (r: Result<Step<Module>>)
    requires newId !in s.modules
    ensures u !in s.users ==> r == Err(NotFound(UserEntity))
    ensures u in s.users && OwnerHasTitle(s.modules, u, title) ==> r == Err(Conflict(TitleTakenByOwner))
    ensures u in s.users && !OwnerHasTitle(s.modules, u, title) &&
            (SlugInUse(s.modules, Slugify(title, DefaultMaxLength)) || TitleInUse(s.modules, title)) ==>
              r == Err(StorageError)
    ensures r.Ok? <==>
              u in s.users && !SlugInUse(s.modules, Slugify(title, DefaultMaxLength)) && !TitleInUse(s.modules, title)
    ensures r.Ok? ==>
              && r.value.out == Module(Slugify(title, DefaultMaxLength), title, description,
                                       isPrivate.GetOr(DefaultIsPrivate), u)
              && r.value.next == s.(modules := s.modules[newId := r.value.out])
  {
    if u !in s.users then Err(NotFound(UserEntity))
    else if OwnerHasTitle(s.modules, u, title) then Err(Conflict(TitleTakenByOwner))
    else
      var slug := Slugify(title, DefaultMaxLength);
      if SlugInUse(s.modules, slug) || TitleInUse(s.modules, title) then Err(StorageError)
      else
        var mod := Module(slug, title, description, isPrivate.GetOr(DefaultIsPrivate), u);
        Ok(Step(s.(modules := s.modules[newId := mod]), mod))
  }

  /** The duplicate check meant by `create`: any module with the title is a
      conflict, reported before the insert. */
  function CreateChecked(s: Store, u: UserId, title: string, description: Option<string>, isPrivate: Option<bool>,
                         newId: ModuleId)
    : (r: Result<Step<Module>>)
    requires newId !in s.modules
    ensures u !in s.users ==> r == Err(NotFound(UserEntity))
    ensures u in s.users && OwnerHasTitle(s.modules, u, title) ==> r == Err(Conflict(TitleTakenByOwner))
    ensures u in s.users && TitleInUse(s.modules, title) ==> r.Err? && r.error.Conflict?
    ensures r.Err? && r.error == StorageError ==> SlugInUse(s.modules, Slugify(title, DefaultMaxLength))
    ensures r.Ok? <==> Create(s, u, title, description, isPrivate, newId).Ok?
    ensures r.Ok? ==> r == Create(s, u, title, description, isPrivate, newId)
  {
    if u !in s.users then Err(NotFound(UserEntity))
    else if OwnerHasTitle(s.modules, u, title) then Err(Conflict(TitleTakenByOwner))
    else if TitleInUse(s.modules, title) then Err(Conflict(TitleTaken))
    else Create(s, u, title, description, isPrivate, newId)
  }

  /** A title another user already uses passes the check of `create` and is
      rejected by the database. */
  lemma CrossOwnerTitleIsStorageError()
    ensures var s := Store({"alice", "bob"}, map["m1" := Module("biology", "Biology", None, true, "alice")],
                           [], {}, map[]);
            && Valid(s)
            && Create(s, "bob", "Biology", None, None, "m2") == Err(StorageError)
            && CreateChecked(s, "bob", "Biology", None, None, "m2") == Err(Conflict(TitleTaken))
  {
    var s := Store({"alice", "bob"}, map["m1" := Module("biology", "Biology", None, true, "alice")],
                   [], {}, map[]);
    assert "m1" in s.modules && s.modules["m1"].title == "Biology";
    assert TitleInUse(s.modules, "Biology");
    assert !OwnerHasTitle(s.modules, "bob", "Biology");
  }

  /** On a valid store the checked create never fails in the database over
      a title. */
  lemma CreateCheckedTitleConflict(s: Store, u: UserId, title: string, description: Option<string>,
                                   isPrivate: Option<bool>, newId: ModuleId)
    requires newId !in s.modules && u in s.users && TitleInUse(s.modules, title)
    ensures CreateChecked(s, u, title, description, isPrivate, newId).Err?
    ensures CreateChecked(s, u, title, description, isPrivate, newId).error != StorageError
  {
  }

  /** A successful create keeps the constraints and links nobody. */
  lemma CreateValid(s: Store, u: UserId, title: string, description: Option<string>, isPrivate: Option<bool>,
                    newId: ModuleId)
    requires Valid(s) && newId !in s.modules
    ensures var r := Create(s, u, title, description, isPrivate, newId);
            r.Ok? ==> Valid(r.value.next) && r.value.next.links == s.links
  {
  }

  /** `findById(id)`: the module with its terms and their legacy histogram. */
  function FindById(s: Store, id: ModuleId): (r: Result<ModuleWithProgress>)
    ensures r.Err? <==> id !in s.modules
    ensures r.Err? ==> r.error == NotFound(ModuleEntity)
    ensures r.Ok? ==>
              && r.value.id == id && r.value.row == s.modules[id]
              && (forall t :: t in r.value.terms <==> t in s.terms && t.moduleId == id)
              && r.value.progress == CalculateProgress(r.value.terms)
              && (r.value.terms != [] ==> Sum(r.value.progress) == 1.0)
  {
    if id !in s.modules then Err(NotFound(ModuleEntity))
    else
      var terms := TermsOf(s.terms, id);
      Ok(ModuleWithProgress(id, s.modules[id], terms, CalculateProgress(terms)))
  }

  /** `findBySlug(slug)`: slugs are unique, so at most one module matches. */
  function FindBySlug(s: Store, slug: string): (r: Result<ModuleWithProgress>)
    requires UniqueSlugsAndTitles(s.modules)
    ensures r.Err? <==> !SlugInUse(s.modules, slug)
    ensures r.Err? ==> r.error == NotFound(ModuleEntity)
    ensures r.Ok? ==> r.value.row.slug == slug && r == FindById(s, r.value.id)
  {
    if !SlugInUse(s.modules, slug) then Err(NotFound(ModuleEntity))
    else
      var id :| id in s.modules && s.modules[id].slug == slug;
      FindById(s, id)
  }

  /** `findByUserId(u)`: every module `u` owns with its legacy histogram. */
  function FindByUserId(s: Store, u: UserId): (r: map<ModuleId, Histogram>)
    ensures forall id :: id in r <==> id in s.modules && s.modules[id].ownerId == u
    ensures forall id :: id in r ==> r[id] == CalculateProgress(TermsOf(s.terms, id))
  {
    map id | id in s.modules && s.modules[id].ownerId == u :: CalculateProgress(TermsOf(s.terms, id))
  }

  /** `findAll()`: every module with its term count. */
  function FindAll(s: Store): (r: map<ModuleId, nat>)
    ensures r.Keys == s.modules.Keys
    ensures forall id :: id in r ==> r[id] == |TermsOf(s.terms, id)|
  {
    map id | id in s.modules :: |TermsOf(s.terms, id)|
  }

  /** `update(u, id, dto)`: owner only; returns the module read back. */
  function Update(s: Store, u: UserId, id: ModuleId, patch: ModulePatch): (r: Result<Step<ModuleWithProgress>>)
    ensures id !in s.modules ==> r == Err(NotFound(ModuleEntity))
    ensures id in s.modules && s.modules[id].ownerId != u ==> r == Err(Forbidden(NotOwner))
    ensures id in s.modules && s.modules[id].ownerId == u && TitleClash(s.modules, id, patch) ==> r == Err(StorageError)
    ensures r.Ok? <==> id in s.modules && s.modules[id].ownerId == u && !TitleClash(s.modules, id, patch)
    ensures r.Ok? ==>
              && r.value.next == s.(modules := s.modules[id := Patched(s.modules[id], patch)])
              && r.value.out.row == Patched(s.modules[id], patch)
              && r.value.out.row.slug == s.modules[id].slug
  {
    if id !in s.modules then Err(NotFound(ModuleEntity))
    else if s.modules[id].ownerId != u then Err(Forbidden(NotOwner))
    else if TitleClash(s.modules, id, patch) then Err(StorageError)
    else
      var next := s.(modules := s.modules[id := Patched(s.modules[id], patch)]);
      var found := FindById(next, id);
      Ok(Step(next, found.value))
  }

  /** `delete(u, id)`: looked up with its terms first, then owner only; the
      module's terms, links and progress rows go with it. */
  function Delete(s: Store, u: UserId, id: ModuleId): (r: Result<Step<ModuleWithProgress>>)
    ensures id !in s.modules ==> r == Err(NotFound(ModuleEntity))
    ensures id in s.modules && s.modules[id].ownerId != u ==> r == Err(Forbidden(NotOwner))
    ensures r.Ok? <==> id in s.modules && s.modules[id].ownerId == u
    ensures r.Ok? ==>
              && r.value.next == DeleteModule(s, id)
              && r.value.out == FindById(s, id).value
              && id !in r.value.next.modules
              && (forall t :: t in r.value.next.terms ==> t.moduleId != id)
              && (forall l :: l in r.value.next.links ==> l.1 != id)
  {
    var found :- FindById(s, id);
    if found.row.ownerId != u then Err(Forbidden(NotOwner))
    else Ok(Step(DeleteModule(s, id), found))
  }
}

=== FILE: module_v2.dfy ===
/** The v2 module service (src/modules/v2/module/module.service.ts): module
    creation and editing, the collection, and the per-user module view. Every
    operation takes the store and returns the next store with its response,
    or the error the service throws. */
module ModuleServiceV2 {
  import opened Results
  import opened Store
  import opened Slugs
  import opened Sync
  import opened Aggregate
  import opened Views
  import opened Access

  /** `attachTermProgress(u, m, terms, isCollected)`: the terms in the given
      order, each with the caller's status and star. Callers who have not
      collected the module see the defaults whatever rows exist. */
  function AttachTermProgress(progress: map<(UserId, TermId), Progress>, u: UserId, terms: seq<Term>, isCollected: bool)
    : (r: seq<TermView>)
    ensures |r| == |terms|
    ensures forall i :: 0 <= i < |r| ==>
              r[i].id == terms[i].id && r[i].term == terms[i].term && r[i].definition == terms[i].definition
    ensures !isCollected ==> forall i :: 0 <= i < |r| ==> r[i].status == NotStarted && !r[i].isStarred
    ensures isCollected ==> forall i :: 0 <= i < |r| && (u, terms[i].id) in progress ==>
              r[i].status == progress[(u, terms[i].id)].status &&
              r[i].isStarred == progress[(u, terms[i].id)].isStarred
    ensures isCollected ==> forall i :: 0 <= i < |r| && (u, terms[i].id) !in progress ==>
              r[i].status == NotStarted && !r[i].isStarred
  {
    if terms == [] then []
    else if !isCollected then
      seq(|terms|, i requires 0 <= i < |terms| => ViewOf(terms[i], DefaultProgress))
    else
      seq(|terms|, i requires 0 <= i < |terms| => ViewOf(terms[i], RowOrDefault(progress, u, terms[i].id)))
  }

  /** Two term lists that differ only in the legacy `status` and `isStarred`
      fields yield the same views: the legacy fields never leak into them. */
  lemma AttachIgnoresLegacyFields(progress: map<(UserId, TermId), Progress>, u: UserId,
                                  terms: seq<Term>, terms': seq<Term>, isCollected: bool)
    requires |terms| == |terms'|
    requires forall i :: 0 <= i < |terms| ==>
               terms[i].id == terms'[i].id && terms[i].term == terms'[i].term &&
               terms[i].definition == terms'[i].definition
    ensures AttachTermProgress(progress, u, terms, isCollected) == AttachTermProgress(progress, u, terms', isCollected)
  {
    var a := AttachTermProgress(progress, u, terms, isCollected);
    var b := AttachTermProgress(progress, u, terms', isCollected);
    assert forall i :: 0 <= i < |a| ==> a[i] == b[i];
  }

  /** The view of module `id` for `u`, given the collection flag. */
  function ViewFor(s: Store, id: ModuleId, u: UserId, includeTerms: bool, isCollected: bool): (v: ModuleView)
    requires id in s.modules && DistinctIds(s.terms)
    ensures v.isOwner == (s.modules[id].ownerId == u) && v.isCollected == isCollected
    ensures v.termsCount == |TermsOf(s.terms, id)|
    ensures v.terms.Some? <==> includeTerms
    ensures v.terms.Some? ==> |v.terms.value| == v.termsCount
    ensures v.progress == CalculateProgressForUser(s, u, TermsOf(s.terms, id), isCollected)
    ensures !isCollected ==> v.progress == DefaultHistogram(v.termsCount)
    ensures v.termsCount == 0 ==> v.progress == Histogram(0.0, 0.0, 0.0)
    ensures !isCollected && v.terms.Some? ==>
              forall tv :: tv in v.terms.value ==> tv.status == NotStarted && !tv.isStarred
    ensures isCollected && Covered(s, u, id) ==>
              Sum(v.progress) == if v.termsCount == 0 then 0.0 else 1.0
    ensures isCollected && Covered(s, u, id) && v.terms.Some? ==>
              forall i :: 0 <= i < |v.terms.value| ==>
                v.terms.value[i] == ViewOf(TermsOf(s.terms, id)[i], s.progress[(u, TermsOf(s.terms, id)[i].id)])
  {
    ViewShape(s, id, u, includeTerms, isCollected);
    ViewDefaults(s, id, u, includeTerms, isCollected);
    ViewCollected(s, id, u, includeTerms, isCollected);
    Assemble(s, id, u, includeTerms, isCollected)
  }

  /** The view of module `id` as `u` sees it, field by field. */
  function Assemble(s: Store, id: ModuleId, u: UserId, includeTerms: bool, isCollected: bool): ModuleView
    requires id in s.modules && DistinctIds(s.terms)
  {
    var mod := s.modules[id];
    var terms := TermsOf(s.terms, id);
    ModuleView(
      id, mod.slug, mod.title, mod.description, mod.isPrivate, mod.ownerId,
      mod.ownerId == u, isCollected, |terms|,
      CalculateProgressForUser(s, u, terms, isCollected),
      if includeTerms then Some(AttachTermProgress(s.progress, u, terms, isCollected)) else None)
  }

  lemma ViewShape(s: Store, id: ModuleId, u: UserId, includeTerms: bool, isCollected: bool)
    requires id in s.modules && DistinctIds(s.terms)
    ensures var v := Assemble(s, id, u, includeTerms, isCollected);
            && v.isOwner == (s.modules[id].ownerId == u) && v.isCollected == isCollected
            && v.termsCount == |TermsOf(s.terms, id)|
            && (v.terms.Some? <==> includeTerms)
            && (v.terms.Some? ==> |v.terms.value| == v.termsCount)
            && v.progress == CalculateProgressForUser(s, u, TermsOf(s.terms, id), isCollected)
  {
  }

  lemma ViewDefaults(s: Store, id: ModuleId, u: UserId, includeTerms: bool, isCollected: bool)
    requires id in s.modules && DistinctIds(s.terms)
    ensures var v := Assemble(s, id, u, includeTerms, isCollected);
            && (!isCollected ==> v.progress == DefaultHistogram(v.termsCount))
            && (v.termsCount == 0 ==> v.progress == Histogram(0.0, 0.0, 0.0))
            && (!isCollected && v.terms.Some? ==>
                  forall tv :: tv in v.terms.value ==> tv.status == NotStarted && !tv.isStarred)
  {
  }

  lemma ViewCollected(s: Store, id: ModuleId, u: UserId, includeTerms: bool, isCollected: bool)
    requires id in s.modules && DistinctIds(s.terms)
    ensures var v := Assemble(s, id, u, includeTerms, isCollected);
            isCollected && Covered(s, u, id) ==>
              && Sum(v.progress) == (if v.termsCount == 0 then 0.0 else 1.0)
              && (v.terms.Some? ==>
                    forall i :: 0 <= i < |v.terms.value| ==>
                      v.terms.value[i] == ViewOf(TermsOf(s.terms, id)[i], s.progress[(u, TermsOf(s.terms, id)[i].id)]))
  {
    var terms := TermsOf(s.terms, id);
    if isCollected && Covered(s, u, id) && includeTerms {
      var tvs := AttachTermProgress(s.progress, u, terms, isCollected);
      forall i | 0 <= i < |tvs| ensures tvs[i] == ViewOf(terms[i], s.progress[(u, terms[i].id)]) {
        assert terms[i] in terms;
      }
    }
  }

  /** `buildModuleForUser(id, u, includeTerms, alreadyCollected)`: the
      collection flag defaults to ownership; a collected module with terms
      gets its missing rows (seeded from the legacy fields for the owner)
      before the histogram and the term list are read. */
  function BuildModuleForUser(s: Store, id: ModuleId, u: UserId, includeTerms: bool, alreadyCollected: Option<bool>)
    : (r: Result<Step<ModuleView>>)
    requires DistinctIds(s.terms)
    ensures r.Err? <==> id !in s.modules
    ensures r.Err? ==> r.error == NotFound(ModuleEntity)
    ensures r.Ok? ==>
              var v := r.value.out;
              var mod := s.modules[id];
              && v.id == id && v.slug == mod.slug && v.title == mod.title
              && v.description == mod.description && v.isPrivate == mod.isPrivate && v.ownerId == mod.ownerId
              && v.isOwner == (mod.ownerId == u)
              && v.isCollected == alreadyCollected.GetOr(v.isOwner)
              && v.termsCount == |TermsOf(s.terms, id)|
              && (v.terms.Some? <==> includeTerms)
              && (v.terms.Some? ==> |v.terms.value| == v.termsCount)
    ensures r.Ok? ==> OnlyRowsAdded(s, r.value.next, u, id)
    ensures r.Ok? && TermsOf(s.terms, id) == [] ==>
              r.value.next == s && r.value.out.progress == Histogram(0.0, 0.0, 0.0)
    ensures r.Ok? && !r.value.out.isCollected ==>
              && r.value.next == s
              && r.value.out.progress == DefaultHistogram(r.value.out.termsCount)
              && (r.value.out.terms.Some? ==> forall tv :: tv in r.value.out.terms.value ==>
                                                tv.status == NotStarted && !tv.isStarred)
    ensures r.Ok? && r.value.out.isCollected ==>
              && Covered(r.value.next, u, id)
              && r.value.out.progress == CalculateProgressForUser(r.value.next, u, TermsOf(s.terms, id), true)
              && Sum(r.value.out.progress) == if r.value.out.termsCount == 0 then 0.0 else 1.0
    ensures r.Ok? && r.value.out.isCollected ==>
              forall t :: t in TermsOf(s.terms, id) && (u, t.id) !in s.progress ==>
                r.value.next.progress[(u, t.id)] == SeedRow(t, r.value.out.isOwner)
    ensures r.Ok? && r.value.out.isCollected && r.value.out.terms.Some? ==>
              forall i :: 0 <= i < |r.value.out.terms.value| ==>
                var t := TermsOf(s.terms, id)[i];
                var row := r.value.next.progress[(u, t.id)];
                r.value.out.terms.value[i] == ViewOf(t, row)
  {
    if id !in s.modules then Err(NotFound(ModuleEntity))
    else
      var isOwner := s.modules[id].ownerId == u;
      var isCollected := alreadyCollected.GetOr(isOwner);
      var next := Materialise(s, u, id, isOwner, isCollected);
      var v := ViewFor(next, id, u, includeTerms, isCollected);
      if isCollected then
        CollectedView(s, u, id, includeTerms, isOwner);
        Ok(Step(next, v))
      else
        Ok(Step(next, v))
  }

  /** The view of a collected module after materialisation: the histogram
      and the term views read the caller's rows, and the rows that were
      missing are the seeded ones. */
  lemma CollectedView(s: Store, u: UserId, id: ModuleId, includeTerms: bool, isOwner: bool)
    requires DistinctIds(s.terms) && id in s.modules
    ensures var next := Materialise(s, u, id, isOwner, true);
            var v := ViewFor(next, id, u, includeTerms, true);
            && next.terms == s.terms
            && Covered(next, u, id)
            && v.progress == CalculateProgressForUser(next, u, TermsOf(s.terms, id), true)
            && Sum(v.progress) == (if v.termsCount == 0 then 0.0 else 1.0)
            && (forall t :: t in TermsOf(s.terms, id) && (u, t.id) !in s.progress ==>
                  next.progress[(u, t.id)] == SeedRow(t, isOwner))
            && (v.terms.Some? ==>
                  forall i :: 0 <= i < |v.terms.value| ==>
                    v.terms.value[i] == ViewOf(TermsOf(s.terms, id)[i], next.progress[(u, TermsOf(s.terms, id)[i].id)]))
  {
  }

  /** The rows `buildModuleForUser` writes: those of a collected module with
      terms, seeded for the owner. */
  function Materialise(s: Store, u: UserId, id: ModuleId, isOwner: bool, isCollected: bool): (next: Store)
    requires DistinctIds(s.terms)
    ensures OnlyRowsAdded(s, next, u, id)
    ensures isCollected ==> Covered(next, u, id)
    ensures isCollected ==> forall t :: t in TermsOf(s.terms, id) && (u, t.id) !in s.progress ==>
              next.progress[(u, t.id)] == SeedRow(t, isOwner)
    ensures !isCollected || TermsOf(s.terms, id) == [] ==> next == s
  {
    if isCollected && |TermsOf(s.terms, id)| > 0 then
      var next := EnsureProgressRecords(s, u, id, isOwner);
      assert OnlyRowsAdded(s, next, u, id);
      next
    else s
  }

  /** `create(u, dto)`. `newId` is the identifier the database generates. The
      single duplicate query matches slug or title; a slug match is reported
      first. The owner is linked to the new module at once. */
  function Create(s: Store, u: UserId, title: string, description: Option<string>, isPrivate: Option<bool>,
                  newId: ModuleId)
    : (r: Result<Step<ModuleView>>)
    requires DistinctIds(s.terms) && newId !in s.modules
    ensures u !in s.users ==> r == Err(NotFound(UserEntity))
    ensures u in s.users && SlugInUse(s.modules, Slugify(title, DefaultMaxLength)) ==>
              r == Err(Conflict(SlugTaken))
    ensures u in s.users && !SlugInUse(s.modules, Slugify(title, DefaultMaxLength)) && TitleInUse(s.modules, title) ==>
              r == Err(Conflict(TitleTaken))
    ensures r.Ok? <==>
              u in s.users && !SlugInUse(s.modules, Slugify(title, DefaultMaxLength)) && !TitleInUse(s.modules, title)
    ensures r.Ok? ==>
              && r.value.next.users == s.users && r.value.next.terms == s.terms
              && r.value.next.modules ==
                   s.modules[newId := Module(Slugify(title, DefaultMaxLength), title, description,
                                             isPrivate.GetOr(DefaultIsPrivate), u)]
              && r.value.next.links == s.links + {(u, newId)}
              && OnlyRowsAdded(s.(modules := r.value.next.modules, links := r.value.next.links), r.value.next, u, newId)
              && r.value.out.id == newId && r.value.out.isOwner && r.value.out.isCollected
              && r.value.out.terms.Some?
    ensures r.Ok? && (forall t :: t in s.terms ==> t.moduleId != newId) ==> r.value.next.progress == s.progress
    ensures r.Ok? ==> WellFormed(r.value.out.slug) && |r.value.out.slug| <= DefaultMaxLength
  {
    if u !in s.users then Err(NotFound(UserEntity))
    else
      var slug := Slugify(title, DefaultMaxLength);
      if SlugInUse(s.modules, slug) then Err(Conflict(SlugTaken))
      else if TitleInUse(s.modules, title) then Err(Conflict(TitleTaken))
      else Ok(Insert(s, u, newId, Module(slug, title, description, isPrivate.GetOr(DefaultIsPrivate), u)))
  }

  /** The success path of `create`: save the module, link the owner, and
      build the owner's view of it. */
  function Insert(s: Store, u: UserId, newId: ModuleId, mod: Module): (r: Step<ModuleView>)
    requires DistinctIds(s.terms) && newId !in s.modules && mod.ownerId == u
    ensures r.next.users == s.users && r.next.terms == s.terms
    ensures r.next.modules == s.modules[newId := mod]
    ensures r.next.links == s.links + {(u, newId)}
    ensures OnlyRowsAdded(s.(modules := r.next.modules, links := r.next.links), r.next, u, newId)
    ensures (forall t :: t in s.terms ==> t.moduleId != newId) ==> r.next.progress == s.progress
    ensures r.out.id == newId && r.out.slug == mod.slug && r.out.isOwner && r.out.isCollected && r.out.terms.Some?
  {
    var saved := s.(modules := s.modules[newId := mod]);
    var linked := EnsureUserModule(saved, u, newId, true);
    InsertRows(s, u, newId, mod);
    BuildModuleForUser(linked, newId, u, true, Some(true)).value
  }

  /** The rows `Insert` writes: the new module's own rows, and none when no
      stored term names the new id. */
  lemma InsertRows(s: Store, u: UserId, newId: ModuleId, mod: Module)
    requires DistinctIds(s.terms) && newId !in s.modules && mod.ownerId == u
    ensures var saved := s.(modules := s.modules[newId := mod]);
            var linked := EnsureUserModule(saved, u, newId, true);
            var r := BuildModuleForUser(linked, newId, u, true, Some(true));
            && r.Ok?
            && OnlyRowsAdded(saved.(links := linked.links), r.value.next, u, newId)
            && ((forall t :: t in s.terms ==> t.moduleId != newId) ==> r.value.next.progress == s.progress)
  {
    var saved := s.(modules := s.modules[newId := mod]);
    var linked := EnsureUserModule(saved, u, newId, true);
    var r := BuildModuleForUser(linked, newId, u, true, Some(true));
    assert OnlyRowsAdded(saved.(links := linked.links), linked, u, newId);
    assert OnlyRowsAdded(linked, r.value.next, u, newId);
    OnlyRowsAddedTrans(saved.(links := linked.links), linked, r.value.next, u, newId);
  }

  /** On a valid store a successful `create` keeps the constraints, writes
      no progress rows (the new module has no terms) and reports an empty
      module. */
  lemma CreateValid(s: Store, u: UserId, title: string, description: Option<string>, isPrivate: Option<bool>,
                    newId: ModuleId)
    requires Valid(s) && newId !in s.modules
    ensures var r := Create(s, u, title, description, isPrivate, newId);
            r.Ok? ==>
              && Valid(r.value.next)
              && r.value.next.progress == s.progress
              && r.value.out.termsCount == 0
              && r.value.out.progress == Histogram(0.0, 0.0, 0.0)
  {
    var r := Create(s, u, title, description, isPrivate, newId);
    if r.Ok? {
      var mod := Module(Slugify(title, DefaultMaxLength), title, description, isPrivate.GetOr(DefaultIsPrivate), u);
      var saved := s.(modules := s.modules[newId := mod]);
      CreateKeepsValid(s, u, newId, mod);
      var linked := EnsureUserModule(saved, u, newId, true);
      EnsureUserModuleValid(saved, u, newId, true);
      assert linked == saved.(links := s.links + {(u, newId)});
      assert TermsOf(linked.terms, newId) == [];
    }
  }

  /** Inserting a module whose slug and title are new, owned by an existing
      user, under a fresh identifier keeps the constraints, and the new
      module has no terms yet. */
  lemma CreateKeepsValid(s: Store, u: UserId, newId: ModuleId, mod: Module)
    requires Valid(s) && u in s.users && newId !in s.modules && mod.ownerId == u
    requires !SlugInUse(s.modules, mod.slug) && !TitleInUse(s.modules, mod.title)
    ensures Valid(s.(modules := s.modules[newId := mod]))
    ensures TermsOf(s.terms, newId) == []
  {
    NoTermsOf(s.terms, newId);
  }

  // -----------------------------------------------------------------------
  // Editing
  // -----------------------------------------------------------------------

  /** `update(u, id, dto)`: owner only; the owner's view afterwards. */
  function Update(s: Store, u: UserId, id: ModuleId, patch: ModulePatch): (r: Result<Step<ModuleView>>)
    requires DistinctIds(s.terms)
    ensures id !in s.modules ==> r == Err(NotFound(ModuleEntity))
    ensures id in s.modules && s.modules[id].ownerId != u ==> r == Err(Forbidden(NotOwner))
    ensures id in s.modules && s.modules[id].ownerId == u && TitleClash(s.modules, id, patch) ==> r == Err(StorageError)
    ensures r.Ok? <==> id in s.modules && s.modules[id].ownerId == u && !TitleClash(s.modules, id, patch)
    ensures r.Ok? ==>
              && r.value.next.modules == s.modules[id := Patched(s.modules[id], patch)]
              && r.value.next.links == s.links
              && r.value.out.isOwner && r.value.out.isCollected
              && r.value.out.slug == s.modules[id].slug
              && r.value.out.title == Patched(s.modules[id], patch).title
              && OnlyRowsAdded(s.(modules := r.value.next.modules), r.value.next, u, id)
  {
    var mod :- EnsureOwnedModule(s, u, id);
    if TitleClash(s.modules, id, patch) then Err(StorageError)
    else
      var updated := s.(modules := s.modules[id := Patched(mod, patch)]);
      BuildModuleForUser(updated, id, u, true, None)
  }

  /** `updateVisibility(u, id, dto)`: owner only; only `isPrivate` changes. */
  function UpdateVisibility(s: Store, u: UserId, id: ModuleId, isPrivate: bool): (r: Result<Step<ModuleView>>)
    requires DistinctIds(s.terms)
    ensures id !in s.modules ==> r == Err(NotFound(ModuleEntity))
    ensures id in s.modules && s.modules[id].ownerId != u ==> r == Err(Forbidden(NotOwner))
    ensures r.Ok? <==> id in s.modules && s.modules[id].ownerId == u
    ensures r.Ok? ==>
              && r.value.next.modules == s.modules[id := s.modules[id].(isPrivate := isPrivate)]
              && r.value.next.links == s.links
              && r.value.out.isPrivate == isPrivate
              && r.value.out.isOwner && r.value.out.isCollected
  {
    var mod :- EnsureOwnedModule(s, u, id);
    var updated := s.(modules := s.modules[id := mod.(isPrivate := isPrivate)]);
    BuildModuleForUser(updated, id, u, true, None)
  }

  /** Changing the visibility is an update whose patch carries only
      `isPrivate`: it can never clash on the title. */
  lemma VisibilityIsUpdate(s: Store, u: UserId, id: ModuleId, isPrivate: bool)
    requires DistinctIds(s.terms)
    ensures UpdateVisibility(s, u, id, isPrivate) == Update(s, u, id, ModulePatch(None, None, Some(isPrivate)))
  {
    var patch := ModulePatch(None, None, Some(isPrivate));
    assert !TitleClash(s.modules, id, patch);
    if id in s.modules {
      assert Patched(s.modules[id], patch) == s.modules[id].(isPrivate := isPrivate);
    }
  }

  /** An update that keeps titles unique keeps the constraints. */
  lemma UpdateValid(s: Store, u: UserId, id: ModuleId, patch: ModulePatch)
    requires Valid(s)
    ensures Update(s, u, id, patch).Ok? ==> Valid(Update(s, u, id, patch).value.next)
  {
    var r := Update(s, u, id, patch);
    if r.Ok? {
      var updated := s.(modules := s.modules[id := Patched(s.modules[id], patch)]);
      PatchKeepsValid(s, id, patch);
      OnlyRowsAddedValid(updated, r.value.next, u, id);
    }
  }


  // -----------------------------------------------------------------------
  // Collection and reads
  // -----------------------------------------------------------------------

  /** `addToCollection(u, id)`: any visible module, the caller's own
      included. The link is added and missing rows get the defaults; the view
      reports `isCollected` as ownership, not as the new link. */
  function AddToCollection(s: Store, u: UserId, id: ModuleId): (r: Result<Step<ModuleView>>)
    requires DistinctIds(s.terms)
    ensures id !in s.modules ==> r == Err(NotFound(ModuleEntity))
    ensures id in s.modules && !Visible(s.modules[id], u) ==> r == Err(Forbidden(ModulePrivate))
    ensures r.Ok? <==> id in s.modules && Visible(s.modules[id], u)
    ensures r.Ok? ==>
              && r.value.next.users == s.users && r.value.next.modules == s.modules && r.value.next.terms == s.terms
              && r.value.next.links == s.links + {(u, id)}
              && Covered(r.value.next, u, id)
              && (forall k :: k in s.progress ==> k in r.value.next.progress && r.value.next.progress[k] == s.progress[k])
              && (forall t :: t in TermsOf(s.terms, id) && (u, t.id) !in s.progress ==>
                    r.value.next.progress[(u, t.id)] == DefaultProgress)
              && r.value.out.isCollected == r.value.out.isOwner
    ensures r.Ok? ==> r.value.out.terms.Some? && r.value.out.termsCount == |TermsOf(s.terms, id)| == |r.value.out.terms.value|
    ensures r.Ok? && !r.value.out.isOwner ==>
              && r.value.out.progress == DefaultHistogram(r.value.out.termsCount)
              && (forall tv :: tv in r.value.out.terms.value ==> tv.status == NotStarted && !tv.isStarred)
    ensures r.Ok? && r.value.out.isOwner ==>
              && r.value.out.progress == CalculateProgressForUser(r.value.next, u, TermsOf(s.terms, id), true)
              && (forall i :: 0 <= i < |r.value.out.terms.value| ==>
                    r.value.out.terms.value[i] ==
                      ViewOf(TermsOf(s.terms, id)[i], r.value.next.progress[(u, TermsOf(s.terms, id)[i].id)]))
  {
    var mod :- FindModuleOrFail(s, id);
    var gate := AssertAccessible(mod, u);
    if gate.Fail? then Err(gate.error)
    else
      var linked := EnsureUserModule(s, u, id, false);
      BuildModuleForUser(linked, id, u, true, None)
  }

  /** `removeFromCollection(u, id)`: deletes the link only; the caller's
      progress rows stay, and the view shows the defaults. */
  function RemoveFromCollection(s: Store, u: UserId, id: ModuleId): (r: Result<Step<ModuleView>>)
    requires DistinctIds(s.terms)
    ensures id !in s.modules ==> r == Err(NotFound(ModuleEntity))
    ensures id in s.modules && !Visible(s.modules[id], u) ==> r == Err(Forbidden(ModulePrivate))
    ensures id in s.modules && s.modules[id].ownerId == u ==> r == Err(Forbidden(OwnModule))
    ensures r.Ok? <==> id in s.modules && !s.modules[id].isPrivate && s.modules[id].ownerId != u
    ensures r.Ok? ==>
              && r.value.next == s.(links := s.links - {(u, id)})
              && !r.value.out.isCollected
              && r.value.out.progress == DefaultHistogram(r.value.out.termsCount)
  {
    var mod :- FindModuleOrFail(s, id);
    var gate := AssertAccessible(mod, u);
    if gate.Fail? then Err(gate.error)
    else if mod.ownerId == u then Err(Forbidden(OwnModule))
    else
      var unlinked := s.(links := s.links - {(u, id)});
      BuildModuleForUser(unlinked, id, u, true, Some(false))
  }

  /** `getById(u, id)`: the module with its terms. A caller who owns or has
      collected it gets the link and the rows materialised first. */
  function GetById(s: Store, u: UserId, id: ModuleId): (r: Result<Step<ModuleView>>)
    requires DistinctIds(s.terms)
    ensures id !in s.modules ==> r == Err(NotFound(ModuleEntity))
    ensures id in s.modules && !Visible(s.modules[id], u) ==> r == Err(Forbidden(ModulePrivate))
    ensures r.Ok? <==> id in s.modules && Visible(s.modules[id], u)
    ensures r.Ok? ==> r.value.out.isCollected == MayStudy(s, u, id) && r.value.out.terms.Some?
    ensures r.Ok? ==> r.value.out.termsCount == |TermsOf(s.terms, id)| == |r.value.out.terms.value|
    ensures r.Ok? && MayStudy(s, u, id) ==>
              && r.value.next.links == s.links + {(u, id)}
              && Covered(r.value.next, u, id)
              && OnlyRowsAdded(s.(links := r.value.next.links), r.value.next, u, id)
    ensures r.Ok? && MayStudy(s, u, id) ==>
              && r.value.out.progress == CalculateProgressForUser(r.value.next, u, TermsOf(s.terms, id), true)
              && (forall i :: 0 <= i < |r.value.out.terms.value| ==>
                    r.value.out.terms.value[i] ==
                      ViewOf(TermsOf(s.terms, id)[i], r.value.next.progress[(u, TermsOf(s.terms, id)[i].id)]))
              && (forall t :: t in TermsOf(s.terms, id) && (u, t.id) !in s.progress ==>
                    r.value.next.progress[(u, t.id)] == SeedRow(t, s.modules[id].ownerId == u))
    ensures r.Ok? && !MayStudy(s, u, id) ==>
              && r.value.next == s
              && r.value.out.progress == DefaultHistogram(r.value.out.termsCount)
              && (forall tv :: tv in r.value.out.terms.value ==> tv.status == NotStarted && !tv.isStarred)
  {
    if id !in s.modules then Err(NotFound(ModuleEntity))
    else
      var mod := s.modules[id];
      var gate := AssertAccessible(mod, u);
      if gate.Fail? then Err(gate.error)
      else
        var isOwner := mod.ownerId == u;
        if isOwner || (u, id) in s.links then
          OpenCollected(s, u, id);
          BuildModuleForUser(EnsureUserModule(s, u, id, isOwner), id, u, true, Some(true))
        else
          BuildModuleForUser(s, id, u, true, Some(false))
  }

  /** What `getById` returns for a module the caller studies: the rows it
      wrote, the histogram over them and one view per term. */
  lemma OpenCollected(s: Store, u: UserId, id: ModuleId)
    requires DistinctIds(s.terms) && MayStudy(s, u, id)
    ensures var isOwner := s.modules[id].ownerId == u;
            var r := BuildModuleForUser(EnsureUserModule(s, u, id, isOwner), id, u, true, Some(true));
            && r.Ok? && r.value.out.isCollected && r.value.out.terms.Some?
            && r.value.out.termsCount == |TermsOf(s.terms, id)| == |r.value.out.terms.value|
            && r.value.next.links == s.links + {(u, id)}
            && Covered(r.value.next, u, id)
            && OnlyRowsAdded(s.(links := r.value.next.links), r.value.next, u, id)
            && r.value.out.progress == CalculateProgressForUser(r.value.next, u, TermsOf(s.terms, id), true)
            && (forall i :: 0 <= i < |r.value.out.terms.value| ==>
                  r.value.out.terms.value[i] ==
                    ViewOf(TermsOf(s.terms, id)[i], r.value.next.progress[(u, TermsOf(s.terms, id)[i].id)]))
            && (forall t :: t in TermsOf(s.terms, id) && (u, t.id) !in s.progress ==>
                  r.value.next.progress[(u, t.id)] == SeedRow(t, isOwner))
  {
  }

  /** Every row the batch adds for a module the caller studies is that
      term's seeded row: the term's own status and star when the caller owns
      the module, not started and unstarred otherwise. */
  predicate BatchSeeded(s: Store, u: UserId, ids: seq<ModuleId>, next: Store)
    requires forall i :: 0 <= i < |ids| ==> ids[i] in s.modules
  {
    forall i, t :: 0 <= i < |ids| && MayStudy(s, u, ids[i]) && t in TermsOf(s.terms, ids[i]) && (u, t.id) !in s.progress ==>
      (u, t.id) in next.progress && next.progress[(u, t.id)] == SeedRow(t, s.modules[ids[i]].ownerId == u)
  }

  /** What the batch promises for `ids` against the store `s` it started
      from: one view per module, in order, each collected when the caller owns
      it or has a link to it (the links are read once, before any row is
      written); only progress rows are added, every one justified and seeded
      by ownership, and every collected module ends up covered, its histogram
      taken over the rows as they stand after the whole batch. */
  predicate BatchOutcome(s: Store, u: UserId, ids: seq<ModuleId>, includeTerms: bool, r: Step<seq<ModuleView>>)
    requires DistinctIds(s.terms)
    requires forall i :: 0 <= i < |ids| ==> ids[i] in s.modules
  {
    && |r.out| == |ids|
    && r.next.users == s.users && r.next.modules == s.modules && r.next.terms == s.terms && r.next.links == s.links
    && (forall i :: 0 <= i < |ids| ==>
          && r.out[i].id == ids[i]
          && r.out[i].slug == s.modules[ids[i]].slug && r.out[i].title == s.modules[ids[i]].title
          && r.out[i].isPrivate == s.modules[ids[i]].isPrivate
          && r.out[i].isOwner == (s.modules[ids[i]].ownerId == u)
          && r.out[i].isCollected == MayStudy(s, u, ids[i])
          && (r.out[i].terms.Some? <==> includeTerms))
    && (forall i :: 0 <= i < |ids| && !MayStudy(s, u, ids[i]) ==>
          r.out[i].progress == DefaultHistogram(r.out[i].termsCount))
    && (forall i :: 0 <= i < |ids| && MayStudy(s, u, ids[i]) ==>
          r.out[i].progress == CalculateProgressForUser(r.next, u, TermsOf(s.terms, ids[i]), true))
    && (forall i :: 0 <= i < |ids| && MayStudy(s, u, ids[i]) ==> Covered(r.next, u, ids[i]))
    && (forall k :: k in s.progress ==> k in r.next.progress && r.next.progress[k] == s.progress[k])
    && NewRowsJustified(s, r.next, u)
    && BatchSeeded(s, u, ids, r.next)
  }

  /** `buildModulesForUserBatch(modules, u, includeTerms)`. */
  function BuildModulesForUserBatch(s: Store, u: UserId, ids: seq<ModuleId>, includeTerms: bool)
    : (r: Step<seq<ModuleView>>)
    requires DistinctIds(s.terms)
    requires forall i :: 0 <= i < |ids| ==> ids[i] in s.modules
    ensures BatchOutcome(s, u, ids, includeTerms, r)
    decreases |ids|
  {
    if ids == [] then Step(s, [])
    else
      var first := BuildModuleForUser(s, ids[0], u, includeTerms, Some(MayStudy(s, u, ids[0])));
      var rest := BuildModulesForUserBatch(first.value.next, u, ids[1..], includeTerms);
      BatchStep(s, first.value, rest, u, ids, includeTerms);
      Step(rest.next, [first.value.out] + rest.out)
  }

  /** `findCreatedModules(u)`: `ids` enumerates the modules `u` owns, in the
      order the query returns them. Every one is reported owned and
      collected, and every one ends up with the owner's rows. */
  function FindCreatedModules(s: Store, u: UserId, ids: seq<ModuleId>): (r: Step<seq<ModuleView>>)
    requires DistinctIds(s.terms)
    requires forall i :: 0 <= i < |ids| ==> ids[i] in s.modules && s.modules[ids[i]].ownerId == u
    requires forall id :: id in s.modules && s.modules[id].ownerId == u ==> id in ids
    ensures |r.out| == |ids|
    ensures forall i :: 0 <= i < |r.out| ==>
              r.out[i].id == ids[i] && r.out[i].isOwner && r.out[i].isCollected && r.out[i].terms.None?
    ensures forall id :: id in s.modules && s.modules[id].ownerId == u ==> Covered(r.next, u, id)
    ensures r.next.links == s.links
    ensures forall i :: 0 <= i < |r.out| ==>
              r.out[i].progress == CalculateProgressForUser(r.next, u, TermsOf(s.terms, ids[i]), true)
    ensures forall i, t :: 0 <= i < |ids| && t in TermsOf(s.terms, ids[i]) && (u, t.id) !in s.progress ==>
              (u, t.id) in r.next.progress && r.next.progress[(u, t.id)] == SeedRow(t, true)
  {
    var r := BuildModulesForUserBatch(s, u, ids, false);
    CreatedOutcome(s, u, ids, r);
    r
  }

  /** `findCollection(u)`: `ids` enumerates the modules `u` has links to.
      Every one is reported collected, a module made private by its owner
      after it was collected included. */
  function FindCollection(s: Store, u: UserId, ids: seq<ModuleId>): (r: Step<seq<ModuleView>>)
    requires DistinctIds(s.terms)
    requires forall i :: 0 <= i < |ids| ==> ids[i] in s.modules && (u, ids[i]) in s.links
    requires forall m :: (u, m) in s.links && m in s.modules ==> m in ids
    ensures |r.out| == |ids|
    ensures forall i :: 0 <= i < |r.out| ==> r.out[i].id == ids[i] && r.out[i].isCollected
    ensures forall i :: 0 <= i < |ids| ==> Covered(r.next, u, ids[i])
    ensures r.next.links == s.links
    ensures forall i :: 0 <= i < |r.out| ==>
              r.out[i].progress == CalculateProgressForUser(r.next, u, TermsOf(s.terms, ids[i]), true)
    ensures forall i, t :: 0 <= i < |ids| && t in TermsOf(s.terms, ids[i]) && (u, t.id) !in s.progress ==>
              (u, t.id) in r.next.progress && r.next.progress[(u, t.id)] == SeedRow(t, s.modules[ids[i]].ownerId == u)
  {
    var r := BuildModulesForUserBatch(s, u, ids, false);
    BatchAllCollected(s, u, ids, false, r);
    r
  }

  /** When the caller owns or has collected every module of the batch, every
      view is collected and every module ends up covered. */
  lemma BatchAllCollected(s: Store, u: UserId, ids: seq<ModuleId>, includeTerms: bool, r: Step<seq<ModuleView>>)
    requires DistinctIds(s.terms)
    requires forall i :: 0 <= i < |ids| ==> ids[i] in s.modules && MayStudy(s, u, ids[i])
    requires BatchOutcome(s, u, ids, includeTerms, r)
    ensures |r.out| == |ids| && r.next.links == s.links
    ensures forall i :: 0 <= i < |ids| ==>
              && r.out[i].id == ids[i] && r.out[i].isCollected
              && r.out[i].isOwner == (s.modules[ids[i]].ownerId == u)
              && (r.out[i].terms.Some? <==> includeTerms)
              && Covered(r.next, u, ids[i])
              && r.out[i].progress == CalculateProgressForUser(r.next, u, TermsOf(s.terms, ids[i]), true)
    ensures forall i, t :: 0 <= i < |ids| && t in TermsOf(s.terms, ids[i]) && (u, t.id) !in s.progress ==>
              (u, t.id) in r.next.progress && r.next.progress[(u, t.id)] == SeedRow(t, s.modules[ids[i]].ownerId == u)
  {
  }

  /** The batch over every module the caller owns reports each of them
      owned and collected and covers them all. */
  lemma CreatedOutcome(s: Store, u: UserId, ids: seq<ModuleId>, r: Step<seq<ModuleView>>)
    requires DistinctIds(s.terms)
    requires forall i :: 0 <= i < |ids| ==> ids[i] in s.modules && s.modules[ids[i]].ownerId == u
    requires forall id :: id in s.modules && s.modules[id].ownerId == u ==> id in ids
    requires BatchOutcome(s, u, ids, false, r)
    ensures |r.out| == |ids|
    ensures forall i :: 0 <= i < |r.out| ==>
              r.out[i].id == ids[i] && r.out[i].isOwner && r.out[i].isCollected && r.out[i].terms.None?
    ensures forall id :: id in s.modules && s.modules[id].ownerId == u ==> Covered(r.next, u, id)
    ensures r.next.links == s.links
    ensures forall i :: 0 <= i < |r.out| ==>
              r.out[i].progress == CalculateProgressForUser(r.next, u, TermsOf(s.terms, ids[i]), true)
    ensures forall i, t :: 0 <= i < |ids| && t in TermsOf(s.terms, ids[i]) && (u, t.id) !in s.progress ==>
              (u, t.id) in r.next.progress && r.next.progress[(u, t.id)] == SeedRow(t, true)
  {
    BatchAllCollected(s, u, ids, false, r);
    EnumeratedCovered(s, r.next, u, ids);
  }

  /** Coverage of every enumerated module is coverage of every module the
      caller owns, once the enumeration lists them all. */
  lemma EnumeratedCovered(s: Store, next: Store, u: UserId, ids: seq<ModuleId>)
    requires forall id :: id in s.modules && s.modules[id].ownerId == u ==> id in ids
    requires forall i :: 0 <= i < |ids| ==> Covered(next, u, ids[i])
    ensures forall id :: id in s.modules && s.modules[id].ownerId == u ==> Covered(next, u, id)
  {
    forall id | id in s.modules && s.modules[id].ownerId == u ensures Covered(next, u, id) {
      var i :| 0 <= i < |ids| && ids[i] == id;
    }
  }

  /** `searchPublic(u, query)`: `ids` enumerates the public modules the
      query matched. A module the caller neither owns nor collected shows the
      default histogram and gets no rows. */
  function SearchPublic(s: Store, u: UserId, ids: seq<ModuleId>): (r: Step<seq<ModuleView>>)
    requires DistinctIds(s.terms)
    requires forall i :: 0 <= i < |ids| ==> ids[i] in s.modules && !s.modules[ids[i]].isPrivate
    ensures |r.out| == |ids|
    ensures forall i :: 0 <= i < |r.out| ==>
              && r.out[i].id == ids[i] && !r.out[i].isPrivate
              && r.out[i].isCollected == MayStudy(s, u, ids[i])
              && (!r.out[i].isCollected ==> r.out[i].progress == DefaultHistogram(r.out[i].termsCount))
              && (r.out[i].isCollected ==>
                    r.out[i].progress == CalculateProgressForUser(r.next, u, TermsOf(s.terms, ids[i]), true))
    ensures NewRowsJustified(s, r.next, u)
    ensures forall i, t :: 0 <= i < |ids| && MayStudy(s, u, ids[i]) && t in TermsOf(s.terms, ids[i]) && (u, t.id) !in s.progress ==>
              (u, t.id) in r.next.progress && r.next.progress[(u, t.id)] == SeedRow(t, s.modules[ids[i]].ownerId == u)
  {
    var r := BuildModulesForUserBatch(s, u, ids, false);
    SearchOutcome(s, u, ids, r);
    r
  }

  /** The batch outcome, read for public modules. */
  lemma SearchOutcome(s: Store, u: UserId, ids: seq<ModuleId>, r: Step<seq<ModuleView>>)
    requires DistinctIds(s.terms)
    requires forall i :: 0 <= i < |ids| ==> ids[i] in s.modules && !s.modules[ids[i]].isPrivate
    requires BatchOutcome(s, u, ids, false, r)
    ensures |r.out| == |ids|
    ensures forall i :: 0 <= i < |r.out| ==>
              && r.out[i].id == ids[i] && !r.out[i].isPrivate
              && r.out[i].isCollected == MayStudy(s, u, ids[i])
              && (!r.out[i].isCollected ==> r.out[i].progress == DefaultHistogram(r.out[i].termsCount))
              && (r.out[i].isCollected ==>
                    r.out[i].progress == CalculateProgressForUser(r.next, u, TermsOf(s.terms, ids[i]), true))
    ensures NewRowsJustified(s, r.next, u)
    ensures forall i, t :: 0 <= i < |ids| && MayStudy(s, u, ids[i]) && t in TermsOf(s.terms, ids[i]) && (u, t.id) !in s.progress ==>
              (u, t.id) in r.next.progress && r.next.progress[(u, t.id)] == SeedRow(t, s.modules[ids[i]].ownerId == u)
  {
  }

  /** One module's view followed by the batch of the rest is the batch of
      all. */
  lemma BatchStep(s: Store, first: Step<ModuleView>, rest: Step<seq<ModuleView>>, u: UserId,
                  ids: seq<ModuleId>, includeTerms: bool)
    requires DistinctIds(s.terms)
    requires ids != [] && forall i :: 0 <= i < |ids| ==> ids[i] in s.modules
    requires OnlyRowsAdded(s, first.next, u, ids[0])
    requires if MayStudy(s, u, ids[0]) then Covered(first.next, u, ids[0]) else first.next == s
    requires first.out.id == ids[0] && first.out.isOwner == (s.modules[ids[0]].ownerId == u)
    requires first.out.slug == s.modules[ids[0]].slug && first.out.title == s.modules[ids[0]].title
    requires first.out.isPrivate == s.modules[ids[0]].isPrivate
    requires first.out.isCollected == MayStudy(s, u, ids[0]) && (first.out.terms.Some? <==> includeTerms)
    requires !first.out.isCollected ==> first.out.progress == DefaultHistogram(first.out.termsCount)
    requires first.out.isCollected ==>
               first.out.progress == CalculateProgressForUser(first.next, u, TermsOf(s.terms, ids[0]), true)
    requires first.out.isCollected ==>
               forall t :: t in TermsOf(s.terms, ids[0]) && (u, t.id) !in s.progress ==>
                 first.next.progress[(u, t.id)] == SeedRow(t, first.out.isOwner)
    requires forall i :: 0 <= i < |ids[1..]| ==> ids[1..][i] in first.next.modules
    requires BatchOutcome(first.next, u, ids[1..], includeTerms, rest)
    ensures BatchOutcome(s, u, ids, includeTerms, Step(rest.next, [first.out] + rest.out))
  {
    var out := [first.out] + rest.out;
    var mid := first.next;
    assert OnlyRowsAdded(s, mid, u, ids[0]);
    forall i | 0 <= i < |ids| && MayStudy(s, u, ids[i])
      ensures Covered(rest.next, u, ids[i])
    {
      if i == 0 {
        CoveredKept(mid, rest.next, u, ids[0]);
      } else {
        assert ids[1..][i - 1] == ids[i];
      }
    }
    forall i | 0 <= i < |ids|
      ensures out[i].id == ids[i] && out[i].isOwner == (s.modules[ids[i]].ownerId == u)
      ensures out[i].slug == s.modules[ids[i]].slug && out[i].title == s.modules[ids[i]].title
      ensures out[i].isPrivate == s.modules[ids[i]].isPrivate
      ensures out[i].isCollected == MayStudy(s, u, ids[i]) && (out[i].terms.Some? <==> includeTerms)
      ensures !MayStudy(s, u, ids[i]) ==> out[i].progress == DefaultHistogram(out[i].termsCount)
    {
      if i > 0 {
        assert ids[1..][i - 1] == ids[i] && out[i] == rest.out[i - 1];
      }
    }
    BatchStepHistograms(s, first, rest, u, ids);
    BatchStepJustified(s, mid, rest.next, u, ids[0]);
    BatchStepSeeded(s, mid, rest.next, u, ids);
  }

  /** The rows the first module adds are seeded and kept by the rest of the
      batch; the rest seeds the others. A row the first module added for a
      later module's term is the same term, since ids are distinct, and so
      the same module. */
  lemma BatchStepSeeded(s: Store, mid: Store, next: Store, u: UserId, ids: seq<ModuleId>)
    requires DistinctIds(s.terms) && ids != [] && forall i :: 0 <= i < |ids| ==> ids[i] in s.modules
    requires OnlyRowsAdded(s, mid, u, ids[0])
    requires MayStudy(s, u, ids[0]) ==>
               && Covered(mid, u, ids[0])
               && forall t :: t in TermsOf(s.terms, ids[0]) && (u, t.id) !in s.progress ==>
                    mid.progress[(u, t.id)] == SeedRow(t, s.modules[ids[0]].ownerId == u)
    requires forall k :: k in mid.progress ==> k in next.progress && next.progress[k] == mid.progress[k]
    requires forall i :: 0 <= i < |ids[1..]| ==> ids[1..][i] in mid.modules
    requires BatchSeeded(mid, u, ids[1..], next)
    ensures BatchSeeded(s, u, ids, next)
  {
    forall i, t | 0 <= i < |ids| && MayStudy(s, u, ids[i]) && t in TermsOf(s.terms, ids[i]) && (u, t.id) !in s.progress
      ensures (u, t.id) in next.progress && next.progress[(u, t.id)] == SeedRow(t, s.modules[ids[i]].ownerId == u)
    {
      if (u, t.id) in mid.progress {
        assert t.id in TermIds(TermsOf(s.terms, ids[0]));
        var w :| w in TermsOf(s.terms, ids[0]) && w.id == t.id;
        FindTermUnique(s.terms, t);
        FindTermUnique(s.terms, w);
        assert w == t && ids[i] == ids[0];
      } else {
        assert i != 0;
        assert ids[1..][i - 1] == ids[i];
      }
    }
  }

  /** The first module's histogram survives the rest of the batch, which only
      adds rows, and the rest's histograms are already final. */
  lemma BatchStepHistograms(s: Store, first: Step<ModuleView>, rest: Step<seq<ModuleView>>, u: UserId,
                            ids: seq<ModuleId>)
    requires DistinctIds(s.terms) && ids != [] && ids[0] in s.modules
    requires OnlyRowsAdded(s, first.next, u, ids[0])
    requires MayStudy(s, u, ids[0]) ==>
               && Covered(first.next, u, ids[0])
               && first.out.progress == CalculateProgressForUser(first.next, u, TermsOf(s.terms, ids[0]), true)
    requires |rest.out| == |ids| - 1
    requires forall k :: k in first.next.progress ==> k in rest.next.progress && rest.next.progress[k] == first.next.progress[k]
    requires forall i :: 0 <= i < |ids| - 1 && MayStudy(first.next, u, ids[1..][i]) ==>
               rest.out[i].progress == CalculateProgressForUser(rest.next, u, TermsOf(s.terms, ids[1..][i]), true)
    ensures forall i :: 0 <= i < |ids| && MayStudy(s, u, ids[i]) ==>
              ([first.out] + rest.out)[i].progress == CalculateProgressForUser(rest.next, u, TermsOf(s.terms, ids[i]), true)
  {
    if MayStudy(s, u, ids[0]) {
      HistogramOfKeptRows(first.next, rest.next, u, TermsOf(s.terms, ids[0]), true);
    }
    ShiftedHistograms(s, first, rest, u, ids);
  }

  lemma ShiftedHistograms(s: Store, first: Step<ModuleView>, rest: Step<seq<ModuleView>>, u: UserId,
                          ids: seq<ModuleId>)
    requires DistinctIds(s.terms) && ids != []
    requires first.next.modules == s.modules && first.next.links == s.links
    requires |rest.out| == |ids| - 1
    requires forall i :: 0 <= i < |ids| - 1 && MayStudy(first.next, u, ids[1..][i]) ==>
               rest.out[i].progress == CalculateProgressForUser(rest.next, u, TermsOf(s.terms, ids[1..][i]), true)
    ensures forall i :: 1 <= i < |ids| && MayStudy(s, u, ids[i]) ==>
              ([first.out] + rest.out)[i].progress == CalculateProgressForUser(rest.next, u, TermsOf(s.terms, ids[i]), true)
  {
    var out := [first.out] + rest.out;
    forall i | 1 <= i < |ids| && MayStudy(s, u, ids[i])
      ensures out[i].progress == CalculateProgressForUser(rest.next, u, TermsOf(s.terms, ids[i]), true)
    {
      ShiftIndex(ids[0], ids[1..], i);
      ShiftIndex(first.out, rest.out, i);
    }
  }

  /** Index `i` of `[x] + xs` is index `i - 1` of `xs`. */
  lemma ShiftIndex<T>(x: T, xs: seq<T>, i: int)
    requires 1 <= i <= |xs|
    ensures ([x] + xs)[i] == xs[i - 1]
  {
  }

  /** Coverage survives any change that keeps the terms and every row. */
  lemma CoveredKept(a: Store, b: Store, u: UserId, m: ModuleId)
    requires a.terms == b.terms
    requires forall k :: k in a.progress ==> k in b.progress
    requires Covered(a, u, m)
    ensures Covered(b, u, m)
  {
  }

  /** Rows added for one collected module, followed by rows justified in the
      intermediate store, are justified overall. */
  lemma BatchStepJustified(s: Store, mid: Store, r: Store, u: UserId, id: ModuleId)
    requires id in s.modules
    requires OnlyRowsAdded(s, mid, u, id)
    requires mid.progress != s.progress ==> MayStudy(s, u, id)
    requires r.users == mid.users && r.modules == mid.modules && r.terms == mid.terms && r.links == mid.links
    requires forall k :: k in mid.progress ==> k in r.progress && r.progress[k] == mid.progress[k]
    requires NewRowsJustified(mid, r, u)
    ensures NewRowsJustified(s, r, u)
  {
    forall k | k in r.progress && k !in s.progress
      ensures k.0 == u && exists t :: t in r.terms && t.id == k.1 && MayStudy(r, u, t.moduleId)
    {
      if k in mid.progress {
        assert mid.progress != s.progress;
        var t :| t in TermsOf(s.terms, id) && t.id == k.1;
        assert t in r.terms && MayStudy(r, u, t.moduleId);
      }
    }
  }

  // -----------------------------------------------------------------------
  // Relations between the operations
  // -----------------------------------------------------------------------

  /** Reading a module twice writes nothing the second time and gives the
      same view. */
  lemma GetByIdIdempotent(s: Store, u: UserId, id: ModuleId)
    requires DistinctIds(s.terms)
    ensures var r := GetById(s, u, id);
            r.Ok? ==> GetById(r.value.next, u, id) == r
  {
    var r := GetById(s, u, id);
    if r.Ok? && MayStudy(s, u, id) {
      var isOwner := s.modules[id].ownerId == u;
      var synced := EnsureUserModule(s, u, id, isOwner);
      EnsureOnCovered(synced, u, id, isOwner);
      assert r.value.next == synced;
      EnsureUserModuleIdempotent(s, u, id, isOwner, isOwner);
    }
  }

  /** After adding a module to the collection, reading it reports it as
      collected (while `addToCollection` itself reports ownership). */
  lemma AddThenGetById(s: Store, u: UserId, id: ModuleId)
    requires DistinctIds(s.terms)
    ensures var a := AddToCollection(s, u, id);
            a.Ok? ==> var g := GetById(a.value.next, u, id);
                      g.Ok? && g.value.out.isCollected
  {
  }

  /** Removing a collected module and adding it back restores the store
      exactly: the progress rows were never deleted. */
  lemma RemoveThenAddRestores(s: Store, u: UserId, id: ModuleId)
    requires DistinctIds(s.terms)
    requires (u, id) in s.links && Covered(s, u, id)
    ensures var rm := RemoveFromCollection(s, u, id);
            rm.Ok? ==> var add := AddToCollection(rm.value.next, u, id);
                       add.Ok? && add.value.next == s
  {
    var rm := RemoveFromCollection(s, u, id);
    if rm.Ok? {
      var unlinked := s.(links := s.links - {(u, id)});
      assert rm.value.next == unlinked;
      var relinked := EnsureUserModule(unlinked, u, id, false);
      assert unlinked.(links := unlinked.links + {(u, id)}) == s;
      EnsureOnCovered(s, u, id, false);
      assert relinked == s;
    }
  }
}

=== FILE: results.dfy ===
/** Failure-compatible result types shared by every service of the model.
    The services signal failures by throwing NestJS HTTP exceptions; here each
    exception becomes an `Err` carrying the kind of failure and, where the
    service distinguishes several messages, the reason it gives. */
module Results {

  /** The entity whose lookup failed (the subject of a `NotFoundException`). */
  datatype Entity = UserEntity | ModuleEntity | TermEntity

  /** Why a `ForbiddenException` was raised. */
  datatype ForbiddenReason =
    | ModulePrivate      // "Module is private"
    | NotInCollection    // "Add the module to your collection first"
    | NotOwner           // "You can only modify your own modules" and the term variants
    | OwnModule          // "Cannot remove your own module from collection"

  /** Why a `ConflictException` was raised. */
  datatype ConflictReason =
    | SlugTaken          // "Module slug already exists"
    | TitleTaken         // "Module title already exists"
    | TitleTakenByOwner  // "Module with this title already exists for this user."
    | TermTaken          // "Term already exists for this module."

  /** The failure taxonomy. `StorageError` is a statement the database
      rejects: a unique-constraint violation the service did not check first,
      or a value outside an enum or `uuid` column. The services do not catch
      it, so it reaches the caller as a server error. */
  datatype Error =
    | NotFound(entity: Entity)
    | Forbidden(reason: ForbiddenReason)
    | Conflict(clash: ConflictReason)
    | StorageError

  datatype Option<+T> = None | Some(value: T) {
    function GetOr(default: T): T {
      match this
      case Some(v) => v
      case None => default
    }
  }

  datatype Result<+T> = Ok(value: T) | Err(error: Error) {
    predicate IsFailure() {
      Err?
    }

    function PropagateFailure<U>(): Result<U>
      requires Err?
    {
      Err(error)
    }

    function Extract(): T
      requires Ok?
    {
      value
    }
  }

  /** The outcome of a check that either lets the call through or fails it. */
  datatype Gate = Pass | Fail(error: Error)
}

=== FILE: slugs.dfy ===
/** URL slugs derived from titles (src/common/utils/sligify.ts).

    The model works on ASCII text: Unicode normalisation, diacritic removal
    and non-ASCII case mapping are not part of it, so a non-ASCII character is
    treated like any other character outside `[a-z0-9]`. */
module Slugs {
  import opened Results

  /** Default `maxLength` of `slugify` and `createUniqueSlug`. */
  const DefaultMaxLength: nat := 50

  /** The slug used for an empty or fully stripped title. */
  const Fallback: string := "item"

  /** `Number.MAX_SAFE_INTEGER`, the bound of the suffix search. */
  const MaxSafeInteger: nat := 9007199254740991

  predicate IsAlnum(c: char) {
    ('a' <= c <= 'z') || ('0' <= c <= '9')
  }

  predicate IsSlugChar(c: char) {
    IsAlnum(c) || c == '-'
  }

  predicate NoDoubleHyphen(s: string) {
    forall i :: 0 <= i < |s| - 1 ==> !(s[i] == '-' && s[i + 1] == '-')
  }

  /** The shape every slug has: only `[a-z0-9-]`, no hyphen at either end and
      never two hyphens in a row. The empty string has this shape too. */
  predicate WellFormed(s: string) {
    && (forall i :: 0 <= i < |s| ==> IsSlugChar(s[i]))
    && (|s| > 0 ==> s[0] != '-' && s[|s| - 1] != '-')
    && NoDoubleHyphen(s)
  }

  predicate IsSlug(s: string) {
    |s| > 0 && WellFormed(s)
  }

  /** The alphanumeric characters of `s`, in order. */
  function Alnums(s: string): string {
    if s == [] then []
    else if IsAlnum(s[0]) then [s[0]] + Alnums(s[1..])
    else Alnums(s[1..])
  }

  // ---------------------------------------------------------------------
  // The pipeline of `slugify`, one function per regular-expression step.
  // ---------------------------------------------------------------------

  function LowerChar(c: char): char {
    if 'A' <= c <= 'Z' then (c as int + 32) as char else c
  }

  /** `toLowerCase()` restricted to ASCII. */
  function Lower(s: string): (r: string)
    ensures |r| == |s|
    ensures forall i :: 0 <= i < |s| ==> r[i] == LowerChar(s[i])
  {
    seq(|s|, i requires 0 <= i < |s| => LowerChar(s[i]))
  }

  /** Drops the leading characters outside `[a-z0-9]`. */
  function SkipNonAlnum(s: string): (r: string)
    ensures |r| <= |s|
    ensures r == s[|s| - |r|..]
    ensures |r| > 0 ==> IsAlnum(r[0])
    ensures Alnums(r) == Alnums(s)
  {
    if s == [] || IsAlnum(s[0]) then s else SkipNonAlnum(s[1..])
  }

  /** Every character `SkipNonAlnum` drops is outside `[a-z0-9]`. */
  lemma {:induction false} SkippedAreSeparators(s: string)
    ensures forall i :: 0 <= i < |s| - |SkipNonAlnum(s)| ==> !IsAlnum(s[i])
    decreases |s|
  {
    if s != [] && !IsAlnum(s[0]) {
      SkippedAreSeparators(s[1..]);
      forall i | 1 <= i < |s| - |SkipNonAlnum(s)| ensures !IsAlnum(s[i]) {
        assert s[i] == s[1..][i - 1];
      }
    }
  }

  /** `replace(/[^a-z0-9]+/g, '-')`: every maximal run of characters outside
      `[a-z0-9]` becomes a single hyphen. */
  function Dasherize(s: string): (r: string)
    decreases |s|
  {
    if s == [] then []
    else if IsAlnum(s[0]) then [s[0]] + Dasherize(s[1..])
    else "-" + Dasherize(SkipNonAlnum(s[1..]))
  }

  function DropLeadingHyphens(s: string): (r: string)
    ensures |r| <= |s|
    ensures r == s[|s| - |r|..]
    ensures |r| > 0 ==> r[0] != '-'
    ensures Alnums(r) == Alnums(s)
  {
    if s != [] && s[0] == '-' then
      var r := DropLeadingHyphens(s[1..]);
      assert s[1..][|s[1..]| - |r|..] == s[|s| - |r|..];
      assert Alnums(s) == Alnums(s[1..]);
      r
    else s
  }

  function DropTrailingHyphens(s: string): (r: string)
    ensures |r| <= |s|
    ensures r == s[..|r|]
    ensures |r| > 0 ==> r[|r| - 1] != '-'
    ensures |s| > 0 && s[0] != '-' ==> |r| > 0
    ensures Alnums(r) == Alnums(s)
  {
    if s != [] && s[|s| - 1] == '-' then
      AlnumsAppend(s[..|s| - 1], "-");
      assert s == s[..|s| - 1] + "-";
      DropTrailingHyphens(s[..|s| - 1])
    else s
  }

  /** `replace(/^-+|-+$/g, '')`. */
  function TrimHyphens(s: string): string {
    DropTrailingHyphens(DropLeadingHyphens(s))
  }

  /** `replace(/-{2,}/g, '-')`: every run of two or more hyphens becomes one. */
  function Collapse(s: string): string {
    if |s| >= 2 && s[0] == '-' && s[1] == '-' then Collapse(s[1..])
    else if s == [] then []
    else [s[0]] + Collapse(s[1..])
  }

  /** The slug before truncation: the regular-expression pipeline followed by
      the `"item"` fallback for an input that was stripped to nothing. */
  function Normalize(input: string): (r: string)
    ensures IsSlug(r)
    ensures Alnums(Lower(input)) == [] ==> r == Fallback
    ensures Alnums(Lower(input)) != [] ==> Alnums(r) == Alnums(Lower(input))
  {
    var lower := Lower(input);
    var dashed := Dasherize(lower);
    DasherizeShape(lower);
    var trimmed := TrimHyphens(dashed);
    TrimKeepsShape(dashed);
    assert Alnums(trimmed) == Alnums(lower);
    CollapseIdentity(trimmed);
    var collapsed := Collapse(trimmed);
    assert collapsed == trimmed;
    if collapsed == [] then
      assert Alnums(lower) == [];
      FallbackIsSlug();
      Fallback
    else
      SlugHasAlnum(collapsed);
      collapsed
  }

  lemma FallbackIsSlug()
    ensures IsSlug(Fallback)
  {
    assert forall i :: 0 <= i < |Fallback| ==> IsAlnum(Fallback[i]);
  }

  /** `slugify(input, maxLength)`. */
  function Slugify(input: string, maxLength: nat): (r: string)
    ensures input == [] ==> r == Fallback
    ensures WellFormed(r)
    ensures input != [] ==> |r| <= maxLength
    ensures maxLength > 0 ==> |r| > 0
  {
    if input == [] then Fallback
    else
      var slug := Normalize(input);
      if |slug| > maxLength then
        PrefixKeepsShape(slug, maxLength);
        DropTrailingHyphens(slug[..maxLength])
      else slug
  }

  /** A well-formed slug is a fixpoint of `slugify` for every `maxLength`
      it fits in. */
  lemma SlugFixpoint(s: string, maxLength: nat)
    requires IsSlug(s)
    requires |s| <= maxLength
    ensures Slugify(s, maxLength) == s
  {
    assert Lower(s) == s;
    DasherizeIdentity(s);
    assert DropLeadingHyphens(s) == s;
    assert DropTrailingHyphens(s) == s;
    CollapseIdentity(s);
  }

  /** `slugify` is idempotent: re-slugifying a slug changes nothing, as long
      as the slug fits `maxLength` (always, except for the `"item"` fallback
      of an empty title under a `maxLength` shorter than four). */
  lemma SlugifyIdempotent(input: string, maxLength: nat)
    requires maxLength > 0
    requires input != [] || maxLength >= |Fallback|
    ensures Slugify(Slugify(input, maxLength), maxLength) == Slugify(input, maxLength)
  {
    SlugFixpoint(Slugify(input, maxLength), maxLength);
  }

  /** What `slugify` keeps of the title: its letters (lower-cased) and digits,
      in order, cut short when the slug is truncated; a title without any
      yields `"item"`. */
  lemma SlugifyContent(input: string, maxLength: nat)
    requires input != []
    ensures Alnums(Lower(input)) == [] && |Fallback| <= maxLength ==> Slugify(input, maxLength) == Fallback
    ensures Alnums(Lower(input)) != [] ==> Alnums(Slugify(input, maxLength)) <= Alnums(Lower(input))
    ensures Alnums(Lower(input)) != [] && |Normalize(input)| <= maxLength ==>
              Alnums(Slugify(input, maxLength)) == Alnums(Lower(input))
  {
    var slug := Normalize(input);
    if |slug| > maxLength {
      TruncationKeepsPrefix(slug, maxLength);
    }
  }

  /** Cutting a slug short keeps a prefix of its letters and digits. */
  lemma TruncationKeepsPrefix(slug: string, n: nat)
    requires n < |slug|
    ensures Alnums(DropTrailingHyphens(slug[..n])) <= Alnums(slug)
  {
    var cut := slug[..n];
    var rest := slug[n..];
    assert slug == cut + rest;
    AlnumsAppend(cut, rest);
    assert Alnums(DropTrailingHyphens(cut)) == Alnums(cut);
    PrefixOfAppend(Alnums(cut), Alnums(rest));
  }

  lemma PrefixOfAppend(a: string, b: string)
    ensures a <= a + b
  {
    assert (a + b)[..|a|] == a;
  }

  // ---------------------------------------------------------------------
  // Shape lemmas for the pipeline steps.
  // ---------------------------------------------------------------------

  lemma {:induction false} DasherizeShape(s: string)
    ensures forall i :: 0 <= i < |Dasherize(s)| ==> IsSlugChar(Dasherize(s)[i])
    ensures NoDoubleHyphen(Dasherize(s))
    ensures |Dasherize(s)| > 0 ==> (Dasherize(s)[0] == '-' <==> !IsAlnum(s[0]))
    ensures Alnums(Dasherize(s)) == Alnums(s)
    decreases |s|
  {
    if s == [] {
    } else if IsAlnum(s[0]) {
      DasherizeShape(s[1..]);
      var r := Dasherize(s);
      assert r == [s[0]] + Dasherize(s[1..]);
      assert r[1..] == Dasherize(s[1..]);
    } else {
      var rest := SkipNonAlnum(s[1..]);
      DasherizeShape(rest);
      var r := Dasherize(s);
      assert r == "-" + Dasherize(rest);
      assert r[1..] == Dasherize(rest);
      assert |rest| > 0 ==> IsAlnum(rest[0]);
      assert Alnums(s) == Alnums(s[1..]);
    }
  }

  lemma {:induction false} AlnumsAppend(a: string, b: string)
    ensures Alnums(a + b) == Alnums(a) + Alnums(b)
  {
    if a != [] {
      assert (a + b)[0] == a[0];
      assert (a + b)[1..] == a[1..] + b;
      AlnumsAppend(a[1..], b);
      if IsAlnum(a[0]) {
        assert Alnums(a + b) == [a[0]] + Alnums(a[1..] + b);
      } else {
        assert Alnums(a + b) == Alnums(a[1..] + b);
      }
    } else {
      assert a + b == b;
    }
  }

  lemma SlugHasAlnum(s: string)
    requires IsSlug(s)
    ensures Alnums(s) != []
  {
    assert IsAlnum(s[0]);
  }

  lemma {:induction false} DasherizeIdentity(s: string)
    requires forall i :: 0 <= i < |s| ==> IsSlugChar(s[i])
    requires NoDoubleHyphen(s)
    requires |s| > 0 ==> s[0] != '-' || |s| == 1 || IsAlnum(s[1])
    ensures Dasherize(s) == s
    decreases |s|
  {
    if s != [] {
      var t := s[1..];
      InfixKeepsShape(s, 1, |s|);
      assert t == s[1..|s|];
      if |t| > 1 && t[0] == '-' {
        assert !(s[1] == '-' && s[2] == '-');
        assert IsSlugChar(s[2]);
      }
      DasherizeIdentity(t);
      if !IsAlnum(s[0]) {
        assert SkipNonAlnum(t) == t;
      }
    }
  }

  lemma InfixKeepsShape(s: string, a: nat, b: nat)
    requires a <= b <= |s|
    requires forall i :: 0 <= i < |s| ==> IsSlugChar(s[i])
    requires NoDoubleHyphen(s)
    ensures forall i :: 0 <= i < b - a ==> IsSlugChar(s[a..b][i])
    ensures NoDoubleHyphen(s[a..b])
  {
    var t := s[a..b];
    forall i | 0 <= i < |t| - 1
      ensures !(t[i] == '-' && t[i + 1] == '-')
    {
      assert t[i] == s[a + i] && t[i + 1] == s[a + i + 1];
    }
  }

  lemma TrimKeepsShape(s: string)
    requires forall i :: 0 <= i < |s| ==> IsSlugChar(s[i])
    requires NoDoubleHyphen(s)
    ensures WellFormed(TrimHyphens(s))
  {
    var lead := DropLeadingHyphens(s);
    InfixKeepsShape(s, |s| - |lead|, |s|);
    var t := DropTrailingHyphens(lead);
    InfixKeepsShape(lead, 0, |t|);
    assert t == lead[0..|t|];
    if |t| > 0 {
      assert t[0] == lead[0];
    }
  }

  lemma {:induction false} CollapseIdentity(s: string)
    requires NoDoubleHyphen(s)
    ensures Collapse(s) == s
    decreases |s|
  {
    if s != [] {
      assert NoDoubleHyphen(s[1..]) by {
        forall i | 0 <= i < |s[1..]| - 1
          ensures !(s[1..][i] == '-' && s[1..][i + 1] == '-')
        {
          assert s[1..][i] == s[i + 1] && s[1..][i + 1] == s[i + 2];
        }
      }
      CollapseIdentity(s[1..]);
      if |s| >= 2 {
        assert !(s[0] == '-' && s[1] == '-');
      }
    }
  }

  lemma PrefixKeepsShape(s: string, n: nat)
    requires IsSlug(s)
    requires n <= |s|
    ensures WellFormed(DropTrailingHyphens(s[..n]))
    ensures n > 0 ==> |DropTrailingHyphens(s[..n])| > 0
  {
    InfixKeepsShape(s, 0, n);
    var p := s[..n];
    assert p == s[0..n];
    var t := DropTrailingHyphens(p);
    InfixKeepsShape(p, 0, |t|);
    assert t == p[0..|t|];
    if n > 0 {
      assert p[0] == s[0];
    }
    if |t| > 0 {
      assert t[0] == p[0];
    }
  }

  // ---------------------------------------------------------------------
  // Where the hyphens go: a reference definition by words.
  // ---------------------------------------------------------------------

  predicate AllAlnum(w: string) {
    forall j :: 0 <= j < |w| ==> IsAlnum(w[j])
  }

  /** The length of the run of `[a-z0-9]` that `s` starts with. */
  function RunLength(s: string): (n: nat)
    ensures n <= |s|
    ensures AllAlnum(s[..n])
    ensures n < |s| ==> !IsAlnum(s[n])
    ensures |s| > 0 && IsAlnum(s[0]) ==> n > 0
  {
    if s == [] || !IsAlnum(s[0]) then 0
    else
      var n := RunLength(s[1..]);
      assert s[..n + 1] == [s[0]] + s[1..][..n];
      n + 1
  }

  /** A word: a non-empty run of letters and digits. */
  predicate IsWord(w: string) {
    |w| > 0 && AllAlnum(w)
  }

  /** The words of `s`: its maximal runs of `[a-z0-9]`, in order. */
  function Words(s: string): seq<string>
    decreases |s|
  {
    if s == [] then []
    else if !IsAlnum(s[0]) then Words(s[1..])
    else
      var n := RunLength(s);
      [s[..n]] + Words(s[n..])
  }

  lemma {:induction false} WordsAreWords(s: string)
    ensures forall i :: 0 <= i < |Words(s)| ==> IsWord(Words(s)[i])
    decreases |s|
  {
    if s != [] && !IsAlnum(s[0]) {
      WordsAreWords(s[1..]);
    } else if s != [] {
      var n := RunLength(s);
      var ws := Words(s[n..]);
      WordsAreWords(s[n..]);
      assert IsWord(s[..n]);
      assert Words(s) == [s[..n]] + ws;
      forall i | 1 <= i < |Words(s)| ensures IsWord(Words(s)[i]) {
        assert Words(s)[i] == ws[i - 1];
      }
    }
  }

  /** Separators in front of the first word do not change the words. */
  lemma {:induction false} WordsSkip(s: string)
    ensures Words(SkipNonAlnum(s)) == Words(s)
    decreases |s|
  {
    if s != [] && !IsAlnum(s[0]) {
      WordsSkip(s[1..]);
    }
  }

  /** The words separated by single hyphens. */
  function JoinHyphen(ws: seq<string>): string {
    if ws == [] then []
    else if |ws| == 1 then ws[0]
    else ws[0] + "-" + JoinHyphen(ws[1..])
  }

  /** A hyphen after `t` when `t` ends in a character outside `[a-z0-9]`. */
  function Tail(t: string): string {
    if t != [] && !IsAlnum(t[|t| - 1]) then "-" else ""
  }

  /** The slug of a title is its words, lower-cased, joined by single
      hyphens: a hyphen stands exactly where the title separates two words.
      A title without words gives `"item"`. */
  lemma NormalizeJoinsWords(input: string)
    ensures Words(Lower(input)) == [] ==> Normalize(input) == Fallback
    ensures Words(Lower(input)) != [] ==> Normalize(input) == JoinHyphen(Words(Lower(input)))
  {
    var lower := Lower(input);
    WordsSkip(lower);
    if SkipNonAlnum(lower) == [] {
      assert Alnums(lower) == [];
    } else {
      WordsHaveAlnum(lower);
      DashedWords(lower);
      NormalizeIsTrim(input);
    }
  }

  /** Trimming the dashed text of a text with a word leaves its words
      joined by single hyphens. */
  lemma DashedWords(s: string)
    requires SkipNonAlnum(s) != []
    ensures Words(s) != []
    ensures TrimHyphens(Dasherize(s)) == JoinHyphen(Words(s))
  {
    var lead, join, tail := DashedIsJoin(s);
    TrimJoin(lead, join, tail);
  }

  /** `Dasherize(s)` is the hyphen-joined words of `s`, with at most one
      hyphen in front and one behind. */
  lemma DashedIsJoin(s: string) returns (lead: string, join: string, tail: string)
    requires SkipNonAlnum(s) != []
    ensures Words(s) != [] && join == JoinHyphen(Words(s))
    ensures lead == "" || lead == "-"
    ensures tail == "" || tail == "-"
    ensures |join| > 0 && join[0] != '-' && join[|join| - 1] != '-'
    ensures Dasherize(s) == lead + (join + tail)
  {
    var t := SkipNonAlnum(s);
    lead := LeadingSeparators(s);
    join := JoinOfWords(s);
    tail := Tail(t);
    DasherizeWords(t);
  }

  /** The separators `s` starts with become at most one hyphen. */
  lemma LeadingSeparators(s: string) returns (lead: string)
    requires s != []
    ensures lead == "" || lead == "-"
    ensures Dasherize(s) == lead + Dasherize(SkipNonAlnum(s))
  {
    if !IsAlnum(s[0]) {
      Separator(s);
      lead := "-";
    } else {
      lead := "";
    }
  }

  /** The words of `s` are those of `s` without its leading separators, and
      joining them gives a string that starts and ends with a letter or
      digit. */
  lemma JoinOfWords(s: string) returns (join: string)
    requires SkipNonAlnum(s) != []
    ensures Words(s) != [] && Words(SkipNonAlnum(s)) == Words(s)
    ensures join == JoinHyphen(Words(s))
    ensures |join| > 0 && join[0] != '-' && join[|join| - 1] != '-'
  {
    WordsSkip(s);
    var ws := Words(s);
    assert ws != [] by {
      assert Words(SkipNonAlnum(s)) != [];
    }
    join := JoinHyphen(ws);
    WordsAreWords(s);
    JoinEnds(ws);
  }

  lemma TrimJoin(lead: string, join: string, tail: string)
    requires lead == "" || lead == "-"
    requires tail == "" || tail == "-"
    requires |join| > 0 && join[0] != '-' && join[|join| - 1] != '-'
    ensures TrimHyphens(lead + (join + tail)) == join
  {
    assert (join + tail)[0] == join[0];
    DropLeadingOne(lead, join + tail);
    DropTrailingOne(join, tail);
  }

  /** Slugifying a title whose words fit `maxLength` joins those words. */
  lemma SlugifyJoinsWords(input: string, maxLength: nat)
    requires Words(Lower(input)) != []
    requires |JoinHyphen(Words(Lower(input)))| <= maxLength
    ensures Slugify(input, maxLength) == JoinHyphen(Words(Lower(input)))
  {
    NormalizeJoinsWords(input);
  }

  /** With a word present, the pipeline's result is the trimmed dashed
      title (no fallback, and collapsing changes nothing). */
  lemma NormalizeIsTrim(input: string)
    requires Alnums(Lower(input)) != []
    ensures Normalize(input) == TrimHyphens(Dasherize(Lower(input)))
  {
    var lower := Lower(input);
    DasherizeShape(lower);
    TrimKeepsShape(Dasherize(lower));
    CollapseIdentity(TrimHyphens(Dasherize(lower)));
  }

  lemma WordsHaveAlnum(s: string)
    requires SkipNonAlnum(s) != []
    ensures Alnums(s) != []
  {
    var t := SkipNonAlnum(s);
    assert Alnums(t) == [t[0]] + Alnums(t[1..]);
  }

  /** A joined list of words starts and ends with a letter or digit. */
  lemma {:induction false} JoinEnds(ws: seq<string>)
    requires ws != []
    requires forall i :: 0 <= i < |ws| ==> IsWord(ws[i])
    ensures |JoinHyphen(ws)| > 0
    ensures IsAlnum(JoinHyphen(ws)[0]) && IsAlnum(JoinHyphen(ws)[|JoinHyphen(ws)| - 1])
    decreases |ws|
  {
    if |ws| > 1 {
      JoinEnds(ws[1..]);
      var j := JoinHyphen(ws);
      var rest := JoinHyphen(ws[1..]);
      assert j == ws[0] + "-" + rest;
      assert j[0] == ws[0][0];
      assert j[|j| - 1] == rest[|rest| - 1];
    } else {
      assert JoinHyphen(ws) == ws[0];
    }
  }

  lemma DropLeadingOne(lead: string, x: string)
    requires lead == "" || lead == "-"
    requires |x| > 0 && x[0] != '-'
    ensures DropLeadingHyphens(lead + x) == x
  {
    if lead == "-" {
      assert (lead + x)[1..] == x;
    } else {
      assert lead + x == x;
    }
  }

  lemma DropTrailingOne(x: string, tail: string)
    requires tail == "" || tail == "-"
    requires |x| > 0 && x[|x| - 1] != '-'
    ensures DropTrailingHyphens(x + tail) == x
  {
    if tail == "-" {
      assert (x + tail)[..|x + tail| - 1] == x;
    } else {
      assert x + tail == x;
    }
  }

  /** A run of letters and digits passes through `Dasherize` unchanged. */
  lemma {:induction false} DasherizeAlnumPrefix(w: string, rest: string)
    requires AllAlnum(w)
    ensures Dasherize(w + rest) == w + Dasherize(rest)
    decreases |w|
  {
    if w != [] {
      var x := w + rest;
      assert Dasherize(x) == [w[0]] + Dasherize(w[1..] + rest) by {
        assert x[0] == w[0] && IsAlnum(w[0]);
        assert x[1..] == w[1..] + rest;
      }
      assert AllAlnum(w[1..]) by {
        forall j | 0 <= j < |w[1..]| ensures IsAlnum(w[1..][j]) {
          assert w[1..][j] == w[j + 1];
        }
      }
      DasherizeAlnumPrefix(w[1..], rest);
      assert w == [w[0]] + w[1..];
      Regroup3([w[0]], w[1..], Dasherize(rest));
    } else {
      assert w + rest == rest;
    }
  }

  lemma Regroup3(a: string, b: string, c: string)
    ensures a + (b + c) == (a + b) + c
  {
  }

  /** From its first word on, `Dasherize` writes the words joined by single
      hyphens, plus one hyphen when the text ends in a separator. */
  lemma {:induction false} DasherizeWords(t: string)
    requires t == [] || IsAlnum(t[0])
    ensures Dasherize(t) == JoinHyphen(Words(t)) + Tail(t)
    decreases |t|
  {
    if t != [] {
      var n := RunLength(t);
      var w := t[..n];
      var rest := t[n..];
      FirstWord(t);
      if rest != [] {
        TailOfSuffix(t, n);
        var t' := SkipNonAlnum(rest);
        Separator(rest);
        assert Words(t) == [w] + Words(t');
        assert Dasherize(t) == w + ("-" + Dasherize(t'));
        if t' == [] {
          assert Words(t) == [w];
          assert Tail(t) == "-";
        } else {
          DasherizeWords(t');
          var j := JoinHyphen(Words(t'));
          assert Words(t') != [];
          JoinCons(w, Words(t'));
          assert JoinHyphen(Words(t)) == w + "-" + j;
          assert Tail(t) == Tail(t');
          assert Dasherize(t) == w + ("-" + (j + Tail(t')));
          Regroup(w, "-", j, Tail(t'));
        }
      }
    }
  }

  /** Splitting off the first word of a text that starts with one. */
  lemma FirstWord(t: string)
    requires t != [] && IsAlnum(t[0])
    ensures var n := RunLength(t);
            && Words(t) == [t[..n]] + Words(t[n..])
            && Dasherize(t) == t[..n] + Dasherize(t[n..])
            && (t[n..] == [] ==> JoinHyphen(Words(t)) + Tail(t) == t[..n] && Dasherize(t) == t[..n])
            && (t[n..] != [] ==> !IsAlnum(t[n..][0]))
  {
    var n := RunLength(t);
    assert t == t[..n] + t[n..];
    DasherizeAlnumPrefix(t[..n], t[n..]);
    if t[n..] == [] {
      assert Words(t) == [t[..n]];
      assert t[|t| - 1] == t[..n][n - 1];
    }
  }

  /** A run of separators becomes one hyphen; the words are those after it.
      A text of separators alone has no words and ends in a separator. */
  lemma Separator(rest: string)
    requires rest != [] && !IsAlnum(rest[0])
    ensures Dasherize(rest) == "-" + Dasherize(SkipNonAlnum(rest))
    ensures Words(rest) == Words(SkipNonAlnum(rest))
    ensures SkipNonAlnum(rest) == [] ==> Words(rest) == [] && Tail(rest) == "-" && Dasherize(rest) == "-"
    ensures SkipNonAlnum(rest) != [] ==> Tail(rest) == Tail(SkipNonAlnum(rest))
  {
    var t' := SkipNonAlnum(rest);
    assert t' == SkipNonAlnum(rest[1..]);
    assert Dasherize(rest) == "-" + Dasherize(t');
    WordsSkip(rest);
    SeparatorTail(rest);
  }

  lemma SeparatorTail(rest: string)
    requires rest != []
    ensures SkipNonAlnum(rest) == [] ==> Tail(rest) == "-"
    ensures SkipNonAlnum(rest) != [] ==> Tail(rest) == Tail(SkipNonAlnum(rest))
  {
    var t' := SkipNonAlnum(rest);
    if t' == [] {
      SkippedAreSeparators(rest);
      assert !IsAlnum(rest[|rest| - 1]);
    } else {
      assert t' == rest[|rest| - |t'|..];
      assert t'[|t'| - 1] == rest[|rest| - 1];
    }
  }

  /** The text after a word ends the way the whole text does. */
  lemma TailOfSuffix(t: string, n: nat)
    requires 0 < n < |t| || (0 < n && n == |t| && IsAlnum(t[n - 1]))
    ensures n < |t| ==> Tail(t) == Tail(t[n..])
    ensures n == |t| ==> Tail(t) == ""
  {
    if n < |t| {
      assert t[n..][|t[n..]| - 1] == t[|t| - 1];
    }
  }

  lemma Regroup(a: string, b: string, c: string, d: string)
    ensures a + (b + (c + d)) == (a + b + c) + d
  {
  }

  lemma JoinCons(w: string, ws: seq<string>)
    requires ws != []
    ensures JoinHyphen([w] + ws) == w + "-" + JoinHyphen(ws)
  {
    assert ([w] + ws)[1..] == ws;
  }

  // ---------------------------------------------------------------------
  // createUniqueSlug
  // ---------------------------------------------------------------------

  function DigitChar(d: nat): (c: char)
    requires d < 10
  {
    ('0' as int + d) as char
  }

  function DigitValue(c: char): int {
    c as int - '0' as int
  }

  predicate AllDigits(s: string) {
    forall i :: 0 <= i < |s| ==> '0' <= s[i] <= '9'
  }

  /** The decimal text of `n`, as JavaScript's template `${n}` writes it. */
  function Decimal(n: nat): (r: string)
    ensures |r| > 0 && AllDigits(r)
  {
    if n < 10 then [DigitChar(n)] else Decimal(n / 10) + [DigitChar(n % 10)]
  }

  /** Reads a string of digits back as a number. */
  function ParseDecimal(s: string): int {
    if s == [] then 0 else ParseDecimal(s[..|s| - 1]) * 10 + DigitValue(s[|s| - 1])
  }

  /** The text after the last hyphen of `s` (all of `s` if it has none). */
  function AfterLastHyphen(s: string): string {
    if s == [] || s[|s| - 1] == '-' then [] else AfterLastHyphen(s[..|s| - 1]) + [s[|s| - 1]]
  }

  /** The number a candidate slug carries in its suffix. */
  function SuffixNumber(c: string): int {
    ParseDecimal(AfterLastHyphen(c))
  }

  /** The candidate of attempt `i`: the base slug, cut so that base and
      suffix together fit `maxLength` (but never below one character) and
      stripped of trailing hyphens, followed by `-i`. */
  function Candidate(base: string, i: nat, maxLength: nat): (c: string)
  {
    var suffix := "-" + Decimal(i);
    var allowed := if maxLength - |suffix| > 1 then maxLength - |suffix| else 1;
    var truncated := if |base| > allowed then DropTrailingHyphens(base[..allowed]) else base;
    truncated + suffix
  }

  lemma {:induction false} ParseDecimalOfDecimal(n: nat)
    ensures ParseDecimal(Decimal(n)) == n
  {
    var d := Decimal(n);
    if n >= 10 {
      ParseDecimalOfDecimal(n / 10);
      assert d[..|d| - 1] == Decimal(n / 10);
    }
  }

  lemma {:induction false} AfterLastHyphenOfDigits(x: string, d: string)
    requires AllDigits(d)
    ensures AfterLastHyphen(x + "-" + d) == d
    decreases |d|
  {
    var s := x + "-" + d;
    if d == [] {
      assert s[|s| - 1] == '-';
    } else {
      var d' := d[..|d| - 1];
      assert s[..|s| - 1] == x + "-" + d';
      assert s[|s| - 1] == d[|d| - 1];
      AfterLastHyphenOfDigits(x, d');
      assert d == d' + [d[|d| - 1]];
    }
  }

  /** Distinct attempts produce distinct candidates: the attempt number can
      be read back from the suffix. */
  lemma CandidateNumber(base: string, i: nat, maxLength: nat)
    ensures SuffixNumber(Candidate(base, i, maxLength)) == i
  {
    var suffix := "-" + Decimal(i);
    var allowed := if maxLength - |suffix| > 1 then maxLength - |suffix| else 1;
    var truncated := if |base| > allowed then DropTrailingHyphens(base[..allowed]) else base;
    assert Candidate(base, i, maxLength) == truncated + "-" + Decimal(i);
    AfterLastHyphenOfDigits(truncated, Decimal(i));
    ParseDecimalOfDecimal(i);
  }

  /** A candidate fits `maxLength` whenever the suffix alone leaves room for
      one character of the base. */
  lemma CandidateFits(base: string, i: nat, maxLength: nat)
    requires 1 + |Decimal(i)| < maxLength
    ensures |Candidate(base, i, maxLength)| <= maxLength
  {
  }

  lemma SubsetCardinality<T>(a: set<T>, b: set<T>)
    requires a <= b
    ensures |a| <= |b|
  {
    assert b == a + (b - a);
  }

  /** The suffix search of `createUniqueSlug` for a base slug already in
      `taken`: the first candidate `base-2`, `base-3`, ... that is free. */
  method FirstFreeCandidate(base: string, taken: set<string>, maxLength: nat, now: nat)
    returns (r: string)
    ensures |taken| < MaxSafeInteger - 2 ==> r !in taken
    ensures |taken| < MaxSafeInteger - 2 ==>
              exists i :: 2 <= i < MaxSafeInteger && r == Candidate(base, i, maxLength)
                          && forall k :: 2 <= k < i ==> Candidate(base, k, maxLength) in taken
  {
    var i: nat := 2;
    ghost var tried: set<string> := {};
    while i < MaxSafeInteger
      invariant 2 <= i <= MaxSafeInteger
      invariant tried <= taken
      invariant |tried| == i - 2
      invariant forall c :: c in tried ==> SuffixNumber(c) < i
      invariant forall k :: 2 <= k < i ==> Candidate(base, k, maxLength) in taken
      decreases MaxSafeInteger - i
    {
      var candidate := Candidate(base, i, maxLength);
      if candidate !in taken {
        return candidate;
      }
      CandidateNumber(base, i, maxLength);
      tried := tried + {candidate};
      i := i + 1;
    }
    SubsetCardinality(tried, taken);
    r := base + "-" + Decimal(now);
  }

  /** `createUniqueSlug(input, existing, maxLength)`. `existing` is `None`
      when the caller passes no collection; `now` stands for `Date.now()`,
      used only once every suffix below `Number.MAX_SAFE_INTEGER` is taken. */
  method CreateUniqueSlug(input: string, existing: Option<set<string>>, maxLength: nat, now: nat)
    returns (r: string)
    ensures existing.None? ==> r == Slugify(input, maxLength)
    ensures existing.Some? && Slugify(input, maxLength) !in existing.value ==> r == Slugify(input, maxLength)
    ensures existing.Some? && |existing.value| < MaxSafeInteger - 2 ==> r !in existing.value
    ensures existing.Some? && Slugify(input, maxLength) in existing.value && |existing.value| < MaxSafeInteger - 2 ==>
              exists i :: 2 <= i < MaxSafeInteger && r == Candidate(Slugify(input, maxLength), i, maxLength)
                          && forall k :: 2 <= k < i ==> Candidate(Slugify(input, maxLength), k, maxLength) in existing.value
  {
    var base := Slugify(input, maxLength);
    if existing.None? {
      return base;
    }
    if base !in existing.value {
      return base;
    }
    r := FirstFreeCandidate(base, existing.value, maxLength, now);
  }
}

=== FILE: store.dfy ===
/** The relational state the services read and write: users, modules,
    terms, collection links and per-user progress rows, with the database
    constraints of the entities as an invariant and the `onDelete: 'CASCADE'`
    foreign keys as deletion functions. */
module Store {
  import opened Results

  type UserId = string
  type ModuleId = string
  type TermId = string

  /** The three study states of a term (one enum for the legacy term
      column and the per-user progress column). */
  datatype Status = NotStarted | InProgress | Completed

  /** A module row; its id is its key in `Store.modules`. An absent
      description is stored as `None`. */
  datatype Module = Module(
    slug: string,
    title: string,
    description: Option<string>,
    isPrivate: bool,
    ownerId: UserId)

  /** A term row. `status` and `isStarred` are the legacy per-term fields:
      the owner's own progress, used to seed the owner's progress rows. */
  datatype Term = Term(
    id: TermId,
    moduleId: ModuleId,
    term: string,
    definition: string,
    status: Status,
    isStarred: bool)

  /** The mutable part of a `user_term_progress` row. */
  datatype Progress = Progress(status: Status, isStarred: bool)

  /** Column defaults of the entities. */
  const DefaultIsPrivate: bool := true
  const DefaultTermStatus: Status := NotStarted
  const DefaultTermStarred: bool := true
  const DefaultProgress: Progress := Progress(NotStarted, false)

  /** The whole state. Terms are kept in storage order, which stands for
      the order the database returns them in. Keying `progress` by
      (user, term) and holding `links` as a set of (user, module) pairs
      make the two unique constraints hold by construction. */
  datatype Store = Store(
    users: set<UserId>,
    modules: map<ModuleId, Module>,
    terms: seq<Term>,
    links: set<(UserId, ModuleId)>,
    progress: map<(UserId, TermId), Progress>)

  /** The state after an operation together with what it returns. */
  datatype Step<+T> = Step(next: Store, out: T)

  predicate DistinctIds(ts: seq<Term>) {
    forall i, j :: 0 <= i < j < |ts| ==> ts[i].id != ts[j].id
  }

  function TermIds(ts: seq<Term>): set<TermId> {
    set t | t in ts :: t.id
  }

  predicate UniqueSlugsAndTitles(ms: map<ModuleId, Module>) {
    forall a, b :: a in ms && b in ms && a != b ==>
      ms[a].slug != ms[b].slug && ms[a].title != ms[b].title
  }

  /** The database constraints: primary keys, unique columns and foreign
      keys of the five tables. */
  predicate Valid(s: Store) {
    && DistinctIds(s.terms)
    && UniqueSlugsAndTitles(s.modules)
    && (forall id :: id in s.modules ==> s.modules[id].ownerId in s.users)
    && (forall t :: t in s.terms ==> t.moduleId in s.modules)
    && (forall l :: l in s.links ==> l.0 in s.users && l.1 in s.modules)
    && (forall k :: k in s.progress ==> k.0 in s.users && k.1 in TermIds(s.terms))
  }

  lemma TermIdsCons(ts: seq<Term>)
    requires ts != []
    ensures TermIds(ts) == {ts[0].id} + TermIds(ts[1..])
    ensures forall t :: t in ts <==> t == ts[0] || t in ts[1..]
  {
    assert forall t :: t in ts <==> t == ts[0] || t in ts[1..];
  }

  lemma DistinctTail(ts: seq<Term>)
    requires ts != []
    ensures DistinctIds(ts) ==> DistinctIds(ts[1..])
    ensures DistinctIds(ts) ==> forall t :: t in ts[1..] ==> t.id != ts[0].id
  {
    if DistinctIds(ts) {
      forall t | t in ts[1..] ensures t.id != ts[0].id {
        var j :| 0 <= j < |ts[1..]| && ts[1..][j] == t;
        assert ts[j + 1] == t;
      }
    }
  }

  /** Looks a term up by id. */
  function FindTerm(ts: seq<Term>, id: TermId): (r: Option<Term>)
    ensures r.Some? ==> r.value in ts && r.value.id == id
    ensures r.None? <==> id !in TermIds(ts)
  {
    if ts == [] then None
    else if ts[0].id == id then Some(ts[0])
    else
      TermIdsCons(ts);
      FindTerm(ts[1..], id)
  }

  /** With distinct ids, the lookup finds the one term carrying the id. */
  lemma {:induction false} FindTermUnique(ts: seq<Term>, t: Term)
    requires DistinctIds(ts) && t in ts
    ensures FindTerm(ts, t.id) == Some(t)
    decreases |ts|
  {
    if ts[0] != t {
      TermIdsCons(ts);
      DistinctTail(ts);
      FindTermUnique(ts[1..], t);
    }
  }

  /** The terms that satisfy `keep`, in storage order. */
  function Filter(ts: seq<Term>, keep: Term -> bool): (r: seq<Term>)
    ensures |r| <= |ts|
    ensures forall t :: t in r <==> t in ts && keep(t)
    ensures DistinctIds(ts) ==> DistinctIds(r)
  {
    if ts == [] then []
    else
      var rest := Filter(ts[1..], keep);
      DistinctTail(ts);
      if keep(ts[0]) then [ts[0]] + rest else rest
  }

  /** The terms of module `m` (`module.terms`, or a find by `moduleId`). */
  function TermsOf(ts: seq<Term>, m: ModuleId): (r: seq<Term>)
    ensures forall t :: t in r <==> t in ts && t.moduleId == m
    ensures DistinctIds(ts) ==> DistinctIds(r)
  {
    Filter(ts, (t: Term) => t.moduleId == m)
  }

  /** A module no stored term points to has no terms. */
  lemma NoTermsOf(ts: seq<Term>, m: ModuleId)
    requires forall t :: t in ts ==> t.moduleId != m
    ensures TermsOf(ts, m) == []
  {
    FilterNone(ts, (t: Term) => t.moduleId == m);
  }

  lemma {:induction false} FilterNone(ts: seq<Term>, keep: Term -> bool)
    requires forall t :: t in ts ==> !keep(t)
    ensures Filter(ts, keep) == []
    decreases |ts|
  {
    if ts != [] {
      assert !keep(ts[0]);
      FilterNone(ts[1..], keep);
    }
  }

  // -----------------------------------------------------------------------
  // Module rows
  // -----------------------------------------------------------------------

  predicate SlugInUse(ms: map<ModuleId, Module>, slug: string) {
    exists id :: id in ms && ms[id].slug == slug
  }

  predicate TitleInUse(ms: map<ModuleId, Module>, title: string) {
    exists id :: id in ms && ms[id].title == title
  }

  /** The fields an update may carry; an absent field is left as it is. The
      slug is never recomputed. */
  datatype ModulePatch = ModulePatch(
    title: Option<string>,
    description: Option<string>,
    isPrivate: Option<bool>)

  function Patched(mod: Module, patch: ModulePatch): (m: Module)
    ensures m.slug == mod.slug && m.ownerId == mod.ownerId
    ensures m.title == patch.title.GetOr(mod.title)
    ensures m.description == if patch.description.Some? then Some(patch.description.value) else mod.description
    ensures m.isPrivate == patch.isPrivate.GetOr(mod.isPrivate)
  {
    Module(mod.slug, patch.title.GetOr(mod.title),
           if patch.description.Some? then Some(patch.description.value) else mod.description,
           patch.isPrivate.GetOr(mod.isPrivate), mod.ownerId)
  }

  /** A new title that another module already has violates the unique
      column; the service does not check it first. */
  predicate TitleClash(ms: map<ModuleId, Module>, id: ModuleId, patch: ModulePatch) {
    patch.title.Some? && exists other :: other in ms && other != id && ms[other].title == patch.title.value
  }

  /** A patch that does not clash on the title keeps the constraints (the
      slug never changes). */
  lemma PatchKeepsValid(s: Store, id: ModuleId, patch: ModulePatch)
    requires Valid(s) && id in s.modules && !TitleClash(s.modules, id, patch)
    ensures Valid(s.(modules := s.modules[id := Patched(s.modules[id], patch)]))
  {
    var ms := s.modules[id := Patched(s.modules[id], patch)];
    forall a, b | a in ms && b in ms && a != b
      ensures ms[a].slug != ms[b].slug && ms[a].title != ms[b].title
    {
      if a == id || b == id {
        var other := if a == id then b else a;
        assert ms[other] == s.modules[other];
      }
    }
  }

  // -----------------------------------------------------------------------
  // Cascading deletes
  // -----------------------------------------------------------------------

  /** Deleting a term deletes its progress rows. */
  function DeleteTerm(s: Store, id: TermId): (r: Store)
    ensures r.users == s.users && r.modules == s.modules && r.links == s.links
    ensures id !in TermIds(r.terms)
    ensures forall t :: t in r.terms <==> t in s.terms && t.id != id
    ensures forall k :: k in r.progress <==> k in s.progress && k.1 != id
    ensures forall k :: k in r.progress ==> r.progress[k] == s.progress[k]
    ensures Valid(s) ==> Valid(r)
  {
    var terms := Filter(s.terms, (t: Term) => t.id != id);
    Store(s.users, s.modules, terms, s.links,
          map k | k in s.progress && k.1 != id :: s.progress[k])
  }

  /** Deleting a module deletes its terms (and through them their progress
      rows) and every collection link to it. */
  function DeleteModule(s: Store, m: ModuleId): (r: Store)
    ensures r.users == s.users
    ensures r.modules == s.modules - {m}
    ensures forall t :: t in r.terms <==> t in s.terms && t.moduleId != m
    ensures forall l :: l in r.links <==> l in s.links && l.1 != m
    ensures forall k :: k in r.progress <==> k in s.progress && k.1 in TermIds(r.terms)
    ensures forall k :: k in r.progress ==> r.progress[k] == s.progress[k]
    ensures Valid(s) ==> Valid(r)
  {
    var terms := Filter(s.terms, (t: Term) => t.moduleId != m);
    var ids := TermIds(terms);
    Store(s.users, s.modules - {m}, terms,
          set l | l in s.links && l.1 != m,
          map k | k in s.progress && k.1 in ids :: s.progress[k])
  }

  /** Deleting a user deletes the modules they own (with everything those
      cascade to), their collection links and their progress rows. */
  function DeleteUser(s: Store, u: UserId): (r: Store)
    ensures r.users == s.users - {u}
    ensures forall id :: id in r.modules <==> id in s.modules && s.modules[id].ownerId != u
    ensures forall id :: id in r.modules ==> r.modules[id] == s.modules[id]
    ensures forall t :: t in r.terms <==> t in s.terms && t.moduleId in r.modules
    ensures forall l :: l in r.links <==> l in s.links && l.0 != u && l.1 in r.modules
    ensures forall k :: k in r.progress <==> k in s.progress && k.0 != u && k.1 in TermIds(r.terms)
    ensures forall k :: k in r.progress ==> r.progress[k] == s.progress[k]
  {
    var modules := map id | id in s.modules && s.modules[id].ownerId != u :: s.modules[id];
    var terms := Filter(s.terms, (t: Term) => t.moduleId in modules);
    var ids := TermIds(terms);
    Store(s.users - {u}, modules, terms,
          set l | l in s.links && l.0 != u && l.1 in modules,
          map k | k in s.progress && k.0 != u && k.1 in ids :: s.progress[k])
  }

  /** Deleting a user keeps the database constraints. */
  lemma DeleteUserValid(s: Store, u: UserId)
    requires Valid(s)
    ensures Valid(DeleteUser(s, u))
  {
    var r := DeleteUser(s, u);
    assert DistinctIds(r.terms);
    assert UniqueSlugsAndTitles(r.modules);
    forall id | id in r.modules ensures r.modules[id].ownerId in r.users {
      assert s.modules[id].ownerId != u;
    }
  }
}

=== FILE: sync.dfy ===
/** Lazy materialisation of a user's collection link and progress rows
    (`ensureUserModule` and `ensureProgressRecords`; the module service and
    the term-progress service each carry an identical copy). */
module Sync {
  import opened Results
  import opened Store

  /** The row a missing (user, term) pair is created with: the term's legacy
      fields when seeding from the owner's state, the column defaults
      otherwise. */
  function SeedRow(t: Term, seed: bool): (p: Progress)
    ensures seed ==> p.status == t.status && p.isStarred == t.isStarred
    ensures !seed ==> p == DefaultProgress
  {
    if seed then Progress(t.status, t.isStarred) else DefaultProgress
  }

  /** A user's row for a term, or the column defaults when there is none
      (the `?? 'not_started'` and `?? false` of the readers). */
  function RowOrDefault(progress: map<(UserId, TermId), Progress>, u: UserId, id: TermId): (p: Progress)
    ensures (u, id) in progress ==> p == progress[(u, id)]
    ensures (u, id) !in progress ==> p == DefaultProgress
  {
    if (u, id) in progress then progress[(u, id)] else DefaultProgress
  }

  /** Every term of module `m` has a progress row for `u`. */
  predicate Covered(s: Store, u: UserId, m: ModuleId) {
    forall t :: t in TermsOf(s.terms, m) ==> (u, t.id) in s.progress
  }

  /** Inserts, term by term, a seeded row for every term of `ts` that has
      none for `u`; rows already present are left alone. */
  function SeedMissing(progress: map<(UserId, TermId), Progress>, u: UserId, ts: seq<Term>, seed: bool)
    : (r: map<(UserId, TermId), Progress>)
    ensures forall t :: t in ts ==> (u, t.id) in r
    ensures forall k :: k in progress ==> k in r && r[k] == progress[k]
    ensures forall k :: k in r && k !in progress ==> k.0 == u && k.1 in TermIds(ts)
    ensures (forall t :: t in ts ==> (u, t.id) in progress) ==> r == progress
    decreases |ts|
  {
    if ts == [] then progress
    else
      var key := (u, ts[0].id);
      var p := if key in progress then progress else progress[key := SeedRow(ts[0], seed)];
      var r := SeedMissing(p, u, ts[1..], seed);
      TermIdsCons(ts);
      r
  }

  /** With distinct term ids, every row `SeedMissing` inserts is the seeded
      row of its own term. */
  lemma {:induction false} SeedMissingRows(progress: map<(UserId, TermId), Progress>, u: UserId, ts: seq<Term>,
                                           seed: bool)
    requires DistinctIds(ts)
    ensures forall t :: t in ts && (u, t.id) !in progress ==> SeedMissing(progress, u, ts, seed)[(u, t.id)] == SeedRow(t, seed)
    decreases |ts|
  {
    if ts != [] {
      var key := (u, ts[0].id);
      var p := if key in progress then progress else progress[key := SeedRow(ts[0], seed)];
      var r := SeedMissing(p, u, ts[1..], seed);
      assert SeedMissing(progress, u, ts, seed) == r;
      TermIdsCons(ts);
      DistinctTail(ts);
      SeedMissingRows(p, u, ts[1..], seed);
      forall t | t in ts && (u, t.id) !in progress
        ensures r[(u, t.id)] == SeedRow(t, seed)
      {
        if t != ts[0] {
          assert t in ts[1..] && t.id != ts[0].id;
          assert (u, t.id) !in p;
        }
      }
    }
  }

  /** `ensureProgressRecords(u, m, seed)`: one bulk insert of the rows the
      user is missing for the module's terms. */
  function EnsureProgressRecords(s: Store, u: UserId, m: ModuleId, seed: bool): (r: Store)
    requires DistinctIds(s.terms)
    ensures r.users == s.users && r.modules == s.modules && r.terms == s.terms && r.links == s.links
    ensures Covered(r, u, m)
    ensures forall k :: k in s.progress ==> k in r.progress && r.progress[k] == s.progress[k]
    ensures forall t :: t in TermsOf(s.terms, m) && (u, t.id) !in s.progress ==>
              r.progress[(u, t.id)] == SeedRow(t, seed)
    ensures forall k :: k in r.progress && k !in s.progress ==>
              k.0 == u && k.1 in TermIds(TermsOf(s.terms, m))
    ensures TermsOf(s.terms, m) == [] ==> r == s
    ensures Covered(s, u, m) ==> r == s
  {
    var terms := TermsOf(s.terms, m);
    if terms == [] then s
    else
      SeedMissingRows(s.progress, u, terms, seed);
      s.(progress := SeedMissing(s.progress, u, terms, seed))
  }

  /** `r` differs from `s` only by progress rows added for `u` and the terms
      of module `m`; every row of `s` is kept unchanged. */
  predicate OnlyRowsAdded(s: Store, r: Store, u: UserId, m: ModuleId) {
    && r.users == s.users && r.modules == s.modules && r.terms == s.terms && r.links == s.links
    && (forall k :: k in s.progress ==> k in r.progress && r.progress[k] == s.progress[k])
    && (forall k :: k in r.progress && k !in s.progress ==>
          k.0 == u && k.1 in TermIds(TermsOf(s.terms, m)))
  }

  /** Two steps that each only add rows for `u` and `m` together only add
      rows for `u` and `m`. */
  lemma OnlyRowsAddedTrans(a: Store, b: Store, c: Store, u: UserId, m: ModuleId)
    requires OnlyRowsAdded(a, b, u, m) && OnlyRowsAdded(b, c, u, m)
    ensures OnlyRowsAdded(a, c, u, m)
  {
  }

  /** Adding rows for an existing user and the terms of a module keeps the
      database constraints. */
  lemma OnlyRowsAddedValid(s: Store, r: Store, u: UserId, m: ModuleId)
    requires Valid(s) && u in s.users
    requires OnlyRowsAdded(s, r, u, m)
    ensures Valid(r)
  {
    forall k | k in r.progress
      ensures k.0 in r.users && k.1 in TermIds(r.terms)
    {
      if k !in s.progress {
        var t :| t in TermsOf(s.terms, m) && t.id == k.1;
      }
    }
  }

  /** `ensureUserModule(u, m, seed)`: adds the link when absent (the owner
      included) and then ensures the progress rows. */
  function EnsureUserModule(s: Store, u: UserId, m: ModuleId, seed: bool): (r: Store)
    requires DistinctIds(s.terms)
    ensures r.users == s.users && r.modules == s.modules && r.terms == s.terms
    ensures r.links == s.links + {(u, m)}
    ensures Covered(r, u, m)
    ensures forall k :: k in s.progress ==> k in r.progress && r.progress[k] == s.progress[k]
    ensures forall k :: k in r.progress && k !in s.progress ==>
              k.0 == u && k.1 in TermIds(TermsOf(s.terms, m))
    ensures forall t :: t in TermsOf(s.terms, m) && (u, t.id) !in s.progress ==>
              r.progress[(u, t.id)] == SeedRow(t, seed)
  {
    var linked := if (u, m) in s.links then s else s.(links := s.links + {(u, m)});
    EnsureProgressRecords(linked, u, m, seed)
  }

  /** Once the rows are there, ensuring them again (with either seed flag)
      writes nothing. */
  lemma EnsureOnCovered(s: Store, u: UserId, m: ModuleId, seed: bool)
    requires DistinctIds(s.terms)
    requires Covered(s, u, m)
    ensures EnsureProgressRecords(s, u, m, seed) == s
  {
  }

  /** `ensureProgressRecords` is idempotent. */
  lemma EnsureProgressRecordsIdempotent(s: Store, u: UserId, m: ModuleId, seed: bool, seed': bool)
    requires DistinctIds(s.terms)
    ensures EnsureProgressRecords(EnsureProgressRecords(s, u, m, seed), u, m, seed') ==
            EnsureProgressRecords(s, u, m, seed)
  {
    EnsureOnCovered(EnsureProgressRecords(s, u, m, seed), u, m, seed');
  }

  /** `ensureUserModule` is idempotent. */
  lemma EnsureUserModuleIdempotent(s: Store, u: UserId, m: ModuleId, seed: bool, seed': bool)
    requires DistinctIds(s.terms)
    ensures EnsureUserModule(EnsureUserModule(s, u, m, seed), u, m, seed') ==
            EnsureUserModule(s, u, m, seed)
  {
    var once := EnsureUserModule(s, u, m, seed);
    assert (u, m) in once.links;
    EnsureOnCovered(once, u, m, seed');
  }

  /** For an existing user and module, materialisation keeps the database
      constraints. */
  lemma EnsureUserModuleValid(s: Store, u: UserId, m: ModuleId, seed: bool)
    requires Valid(s)
    requires u in s.users && m in s.modules
    ensures Valid(EnsureUserModule(s, u, m, seed))
  {
    var linked := if (u, m) in s.links then s else s.(links := s.links + {(u, m)});
    assert Valid(linked);
    OnlyRowsAddedValid(linked, EnsureProgressRecords(linked, u, m, seed), u, m);
  }
}

=== FILE: term_progress_v2.dfy ===
/** The v2 term-progress service (src/modules/v2/term/term-progress.service.ts):
    a user's status and star on one term, read and written through their own
    progress row. */
module TermProgressV2 {
  import opened Results
  import opened Store
  import opened Sync
  import opened Transitions
  import opened Views
  import opened Access

  /** The caller may write progress for terms of module `m`: they own it, or
      it is public and in their collection. */
  predicate MayWrite(s: Store, u: UserId, m: ModuleId) {
    m in s.modules && (s.modules[m].ownerId == u || (!s.modules[m].isPrivate && (u, m) in s.links))
  }

  /** The row a write starts from: the stored row, or for a caller without
      one the row that would be created (seeded from the legacy fields for
      the owner, the defaults otherwise). */
  function BaseRow(s: Store, u: UserId, t: Term): Progress
    requires t.moduleId in s.modules
  {
    if (u, t.id) in s.progress then s.progress[(u, t.id)] else SeedRow(t, s.modules[t.moduleId].ownerId == u)
  }

  /** A term the caller may write, whether they own its module, and the store
      after the owner's link and rows have been ensured. */
  datatype Admission = Admission(term: Term, isOwner: bool, next: Store)

  /** The checks shared by `updateProgress` and `updateStatus`, in their
      order: the term, its module, privacy, then collection membership; the
      owner path ensures the link and seeds the rows. */
  function Admit(s: Store, u: UserId, termId: TermId): (r: Result<Admission>)
    requires DistinctIds(s.terms)
    ensures termId !in TermIds(s.terms) ==> r == Err(NotFound(TermEntity))
    ensures forall t :: t in s.terms && t.id == termId ==>
              && (t.moduleId !in s.modules ==> r == Err(NotFound(ModuleEntity)))
              && (t.moduleId in s.modules && !Visible(s.modules[t.moduleId], u) ==>
                    r == Err(Forbidden(ModulePrivate)))
              && (t.moduleId in s.modules && Visible(s.modules[t.moduleId], u) && !MayWrite(s, u, t.moduleId) ==>
                    r == Err(Forbidden(NotInCollection)))
              && (MayWrite(s, u, t.moduleId) ==> r.Ok? && r.value.term == t)
    ensures r.Ok? ==>
              && r.value.term in s.terms && r.value.term.id == termId
              && MayWrite(s, u, r.value.term.moduleId)
              && r.value.isOwner == (s.modules[r.value.term.moduleId].ownerId == u)
              && (r.value.isOwner ==> r.value.next == EnsureUserModule(s, u, r.value.term.moduleId, true))
              && (!r.value.isOwner ==> r.value.next == s)
  {
    match FindTerm(s.terms, termId)
    case None => Err(NotFound(TermEntity))
    case Some(t) =>
      assert forall t' :: t' in s.terms && t'.id == termId ==> t' == t by {
        forall t' | t' in s.terms && t'.id == termId ensures t' == t {
          FindTermUnique(s.terms, t');
        }
      }
      var mod :- FindModuleOrFail(s, t.moduleId);
      var isOwner := mod.ownerId == u;
      if mod.isPrivate && !isOwner then Err(Forbidden(ModulePrivate))
      else if !isOwner && (u, t.moduleId) !in s.links then Err(Forbidden(NotInCollection))
      else if isOwner then Ok(Admission(t, true, EnsureUserModule(s, u, t.moduleId, true)))
      else Ok(Admission(t, false, s))
  }

  /** After admission the row the service loads or creates is `BaseRow` of
      the store before the call. */
  lemma AdmittedRowIsBaseRow(s: Store, u: UserId, termId: TermId)
    requires DistinctIds(s.terms)
    ensures var r := Admit(s, u, termId);
            r.Ok? ==>
              var key := (u, termId);
              (if key in r.value.next.progress then r.value.next.progress[key] else SeedRow(r.value.term, r.value.isOwner))
              == BaseRow(s, u, r.value.term)
  {
    var r := Admit(s, u, termId);
    if r.Ok? && r.value.isOwner {
      assert r.value.term in TermsOf(s.terms, r.value.term.moduleId);
    }
  }

  /** The fields of `UpdateTermProgressDto`; an absent field is not written. */
  datatype ProgressPatch = ProgressPatch(status: Option<Status>, isStarred: Option<bool>)

  function Apply(p: Progress, patch: ProgressPatch): (q: Progress)
    ensures q.status == patch.status.GetOr(p.status)
    ensures q.isStarred == patch.isStarred.GetOr(p.isStarred)
  {
    Progress(patch.status.GetOr(p.status), patch.isStarred.GetOr(p.isStarred))
  }

  /** `updateProgress(u, termId, dto)`: the row is always saved. */
  function UpdateProgress(s: Store, u: UserId, termId: TermId, patch: ProgressPatch): (r: Result<Step<TermView>>)
    requires DistinctIds(s.terms)
    ensures r.Err? <==> Admit(s, u, termId).Err?
    ensures r.Err? ==> r.error == Admit(s, u, termId).error
    ensures r.Ok? ==>
              var t := Admit(s, u, termId).value.term;
              var row := Apply(BaseRow(s, u, t), patch);
              && (u, termId) in r.value.next.progress
              && r.value.next.progress[(u, termId)] == row
              && r.value.out == ViewOf(t, row)
              && r.value.next.users == s.users && r.value.next.modules == s.modules
              && r.value.next.terms == s.terms
    ensures r.Ok? ==>
              var a := Admit(s, u, termId).value;
              r.value.next == a.next.(progress := a.next.progress[(u, termId) := Apply(BaseRow(s, u, a.term), patch)])
  {
    var a :- Admit(s, u, termId);
    AdmittedRowIsBaseRow(s, u, termId);
    var key := (u, termId);
    var current := if key in a.next.progress then a.next.progress[key] else SeedRow(a.term, a.isOwner);
    var row := Apply(current, patch);
    Ok(Step(a.next.(progress := a.next.progress[key := row]), ViewOf(a.term, row)))
  }

  /** `updateStatus(u, termId, success)`: one step of the v2 rule; the row is
      saved only when the status changes. */
  function UpdateStatus(s: Store, u: UserId, termId: TermId, success: bool): (r: Result<Step<TermView>>)
    requires DistinctIds(s.terms)
    ensures r.Err? <==> Admit(s, u, termId).Err?
    ensures r.Err? ==> r.error == Admit(s, u, termId).error
    ensures r.Ok? ==>
              var a := Admit(s, u, termId).value;
              var base := BaseRow(s, u, a.term);
              var next := NextV2(base.status, success);
              && r.value.out == ViewOf(a.term, base.(status := next))
              && (next != base.status ==> r.value.next == a.next.(progress := a.next.progress[(u, termId) := base.(status := next)]))
              && (next == base.status ==> r.value.next == a.next)
  {
    var a :- Admit(s, u, termId);
    AdmittedRowIsBaseRow(s, u, termId);
    var key := (u, termId);
    var current := if key in a.next.progress then a.next.progress[key] else SeedRow(a.term, a.isOwner);
    var status := NextV2(current.status, success);
    if status != current.status then
      var row := current.(status := status);
      Ok(Step(a.next.(progress := a.next.progress[key := row]), ViewOf(a.term, row)))
    else
      Ok(Step(a.next, ViewOf(a.term, current)))
  }

  /** A status step that moves is the same write as an update that sets the
      new status. */
  lemma UpdateStatusIsUpdateProgress(s: Store, u: UserId, termId: TermId, success: bool)
    requires DistinctIds(s.terms)
    ensures var r := UpdateStatus(s, u, termId, success);
            r.Ok? ==>
              var a := Admit(s, u, termId).value;
              var base := BaseRow(s, u, a.term);
              NextV2(base.status, success) != base.status ==>
                r == UpdateProgress(s, u, termId, ProgressPatch(Some(NextV2(base.status, success)), None))
  {
  }

  /** The checks of `getProgress`: the term, its module, then privacy. */
  function Readable(s: Store, u: UserId, termId: TermId): (r: Result<Term>)
    requires DistinctIds(s.terms)
    ensures termId !in TermIds(s.terms) ==> r == Err(NotFound(TermEntity))
    ensures forall t :: t in s.terms && t.id == termId ==>
              && (t.moduleId !in s.modules ==> r == Err(NotFound(ModuleEntity)))
              && (t.moduleId in s.modules && !Visible(s.modules[t.moduleId], u) ==>
                    r == Err(Forbidden(ModulePrivate)))
              && (t.moduleId in s.modules && Visible(s.modules[t.moduleId], u) ==> r == Ok(t))
    ensures r.Ok? ==> r.value in s.terms && r.value.id == termId
    ensures r.Ok? ==> r.value.moduleId in s.modules && Visible(s.modules[r.value.moduleId], u)
  {
    match FindTerm(s.terms, termId)
    case None => Err(NotFound(TermEntity))
    case Some(t) =>
      assert forall t' :: t' in s.terms && t'.id == termId ==> t' == t by {
        forall t' | t' in s.terms && t'.id == termId ensures t' == t {
          FindTermUnique(s.terms, t');
        }
      }
      var mod :- FindModuleOrFail(s, t.moduleId);
      if mod.isPrivate && mod.ownerId != u then Err(Forbidden(ModulePrivate)) else Ok(t)
  }

  /** `getProgress(u, termId)`: any caller who can see the module may read.
      A collected caller without a row gets the module's rows ensured and the
      whole read is repeated; everyone else reads their row (kept from an
      earlier collection, say) or the defaults, and nothing is written. */
  function GetProgress(s: Store, u: UserId, termId: TermId): (r: Result<Step<TermView>>)
    requires DistinctIds(s.terms)
    ensures r.Err? <==> Readable(s, u, termId).Err?
    ensures r.Err? ==> r.error == Readable(s, u, termId).error
    ensures r.Ok? ==> OnlyRowsAdded(s, r.value.next, u, Readable(s, u, termId).value.moduleId)
    ensures r.Ok? ==>
              var t := Readable(s, u, termId).value;
              MayStudy(s, u, t.moduleId) ==>
                && (u, termId) in r.value.next.progress
                && r.value.next.progress[(u, termId)] == BaseRow(s, u, t)
                && r.value.out == ViewOf(t, BaseRow(s, u, t))
    ensures r.Ok? ==>
              var t := Readable(s, u, termId).value;
              !MayStudy(s, u, t.moduleId) || (u, termId) in s.progress ==>
                && r.value.next == s
                && r.value.out == ViewOf(t, RowOrDefault(s.progress, u, termId))
    ensures r.Ok? ==>
              var t := Readable(s, u, termId).value;
              MayStudy(s, u, t.moduleId) && (u, termId) !in s.progress ==>
                && Covered(r.value.next, u, t.moduleId)
                && forall t' :: t' in TermsOf(s.terms, t.moduleId) && (u, t'.id) !in s.progress ==>
                     r.value.next.progress[(u, t'.id)] == SeedRow(t', s.modules[t.moduleId].ownerId == u)
    decreases if (u, termId) in s.progress then 0 else 1
  {
    var t :- Readable(s, u, termId);
    var isOwner := s.modules[t.moduleId].ownerId == u;
    var isCollected := isOwner || (u, t.moduleId) in s.links;
    if isCollected && (u, termId) !in s.progress then
      var synced := EnsureProgressRecords(s, u, t.moduleId, isOwner);
      assert t in TermsOf(s.terms, t.moduleId);
      assert Readable(synced, u, termId) == Ok(t);
      assert (u, termId) in synced.progress && synced.progress[(u, termId)] == SeedRow(t, isOwner);
      var again := GetProgress(synced, u, termId);
      assert again.Ok? && again.value.next == synced;
      again
    else
      Ok(Step(s, ViewOf(t, RowOrDefault(s.progress, u, termId))))
  }

  /** The rows are ensured only for a reader who lacks the row of the term
      read: an owner who has it reads without writing, and the module's
      other terms stay without rows. */
  lemma ReadWithRowEnsuresNothing()
    ensures var t1 := Term("t1", "m", "a", "b", InProgress, false);
            var t2 := Term("t2", "m", "c", "d", Completed, true);
            var s := Store({"u"}, map["m" := Module("m", "M", None, true, "u")], [t1, t2], {},
                           map[("u", "t1") := DefaultProgress]);
            var r := GetProgress(s, "u", "t1");
            r.Ok? && r.value.next == s && MayStudy(s, "u", "m") && !Covered(r.value.next, "u", "m")
  {
    var t1 := Term("t1", "m", "a", "b", InProgress, false);
    var t2 := Term("t2", "m", "c", "d", Completed, true);
    var s := Store({"u"}, map["m" := Module("m", "M", None, true, "u")], [t1, t2], {},
                   map[("u", "t1") := DefaultProgress]);
    assert DistinctIds(s.terms);
    assert Readable(s, "u", "t1") == Ok(t1);
    assert t2 in TermsOf(s.terms, "m") && ("u", t2.id) !in s.progress;
  }

  // -----------------------------------------------------------------------
  // Relations between the operations
  // -----------------------------------------------------------------------

  /** A read that materialised the row writes nothing when repeated and
      returns the same view. */
  lemma GetProgressIdempotent(s: Store, u: UserId, termId: TermId)
    requires DistinctIds(s.terms)
    ensures var r := GetProgress(s, u, termId);
            r.Ok? ==> GetProgress(r.value.next, u, termId) == r
  {
    var r := GetProgress(s, u, termId);
    if r.Ok? {
      var t := Readable(s, u, termId).value;
      assert Readable(r.value.next, u, termId) == Ok(t);
    }
  }

  /** Reading after a successful write returns what was written. */
  lemma UpdateThenGet(s: Store, u: UserId, termId: TermId, patch: ProgressPatch)
    requires DistinctIds(s.terms)
    ensures var w := UpdateProgress(s, u, termId, patch);
            w.Ok? ==>
              var g := GetProgress(w.value.next, u, termId);
              g.Ok? && g.value.next == w.value.next && g.value.out == w.value.out
  {
    var w := UpdateProgress(s, u, termId, patch);
    if w.Ok? {
      var a := Admit(s, u, termId).value;
      assert Readable(w.value.next, u, termId) == Ok(a.term);
    }
  }

  /** Under the v2 rule a failed attempt undoes a successful one on the
      caller's row, except at completed. */
  lemma SuccessThenFailureRestores(s: Store, u: UserId, termId: TermId)
    requires DistinctIds(s.terms)
    ensures var up := UpdateStatus(s, u, termId, true);
            up.Ok? ==>
              var base := BaseRow(s, u, Admit(s, u, termId).value.term);
              base.status != Completed ==>
                var down := UpdateStatus(up.value.next, u, termId, false);
                down.Ok? && down.value.out.status == base.status
                && down.value.out.isStarred == base.isStarred
  {
    var up := UpdateStatus(s, u, termId, true);
    if up.Ok? && BaseRow(s, u, Admit(s, u, termId).value.term).status != Completed {
      var a := Admit(s, u, termId).value;
      var base := BaseRow(s, u, a.term);
      V2FailureUndoesSuccess(base.status);
      assert NextV2(base.status, true) != base.status;
      var next := up.value.next;
      assert MayWrite(next, u, a.term.moduleId);
      assert Admit(next, u, termId).Ok? && Admit(next, u, termId).value.term == a.term;
      assert BaseRow(next, u, a.term) == base.(status := NextV2(base.status, true));
    }
  }
}

=== FILE: term_v1.dfy ===
/** The v1 term service (src/modules/v1/terms/term.service.ts): terms as rows
    of their module, with the legacy per-term `status` and `isStarred` that
    only the module owner may change. */
module TermServiceV1 {
  import opened Results
  import opened Store
  import opened Transitions

  /** Every term's module exists (the term table's foreign key). The
      owner-only operations dereference the term's module and rely on it. */
  predicate TermsHaveModules(s: Store) {
    forall t :: t in s.terms ==> t.moduleId in s.modules
  }

  /** The enum column's spelling of each status; any other string is
      rejected by the database. */
  function StatusName(st: Status): string {
    match st
    case NotStarted => "not_started"
    case InProgress => "in_progress"
    case Completed => "completed"
  }

  function ParseStatus(raw: string): (r: Option<Status>)
    ensures r.Some? ==> StatusName(r.value) == raw
    ensures r.None? ==> forall st: Status :: StatusName(st) != raw
  {
    if raw == "not_started" then Some(NotStarted)
    else if raw == "in_progress" then Some(InProgress)
    else if raw == "completed" then Some(Completed)
    else None
  }

  lemma ParseStatusName(st: Status)
    ensures ParseStatus(StatusName(st)) == Some(st)
  {
  }

  predicate TermInModule(s: Store, moduleId: ModuleId, term: string) {
    exists t :: t in s.terms && t.moduleId == moduleId && t.term == term
  }

  /** `create(u, dto)`. `newId` is the identifier the database generates; the
      new row goes to the end of the table. */
  function Create(s: Store, u: UserId, moduleId: ModuleId, term: string, definition: string,
                  status: Option<string>, isStarred: Option<bool>, newId: TermId)
    : (r: Result<Step<Term>>)
    requires newId !in TermIds(s.terms)
    ensures moduleId !in s.modules ==> r == Err(NotFound(ModuleEntity))
    ensures moduleId in s.modules && s.modules[moduleId].ownerId != u ==> r == Err(Forbidden(NotOwner))
    ensures moduleId in s.modules && s.modules[moduleId].ownerId == u && TermInModule(s, moduleId, term) ==>
              r == Err(Conflict(TermTaken))
    ensures moduleId in s.modules && s.modules[moduleId].ownerId == u && !TermInModule(s, moduleId, term) &&
            status.Some? && ParseStatus(status.value).None? ==>
              r == Err(StorageError)
    ensures r.Ok? <==>
              && moduleId in s.modules && s.modules[moduleId].ownerId == u && !TermInModule(s, moduleId, term)
              && (status.Some? ==> ParseStatus(status.value).Some?)
    ensures r.Ok? ==>
              && r.value.out.id == newId && r.value.out.moduleId == moduleId
              && r.value.out.term == term && r.value.out.definition == definition
              && (status.None? ==> r.value.out.status == DefaultTermStatus)
              && (status.Some? ==> StatusName(r.value.out.status) == status.value)
              && r.value.out.isStarred == isStarred.GetOr(DefaultTermStarred)
              && r.value.next == s.(terms := s.terms + [r.value.out])
    ensures r.Ok? && Valid(s) ==> Valid(r.value.next)
  {
    if moduleId !in s.modules then Err(NotFound(ModuleEntity))
    else if s.modules[moduleId].ownerId != u then Err(Forbidden(NotOwner))
    else if TermInModule(s, moduleId, term) then Err(Conflict(TermTaken))
    else
      var parsed := if status.Some? then ParseStatus(status.value) else Some(DefaultTermStatus);
      if parsed.None? then Err(StorageError)
      else
        var t := Term(newId, moduleId, term, definition, parsed.value, isStarred.GetOr(DefaultTermStarred));
        var next := s.(terms := s.terms + [t]);
        assert Valid(s) ==> Valid(next) by {
          if Valid(s) {
            AppendKeepsValid(s, t);
          }
        }
        Ok(Step(next, t))
  }

  /** Appending a term with a fresh id to an existing module keeps the
      constraints. */
  lemma AppendKeepsValid(s: Store, t: Term)
    requires Valid(s) && t.id !in TermIds(s.terms) && t.moduleId in s.modules
    ensures Valid(s.(terms := s.terms + [t]))
  {
    var ts := s.terms + [t];
    forall i, j | 0 <= i < j < |ts| ensures ts[i].id != ts[j].id {
      if j == |ts| - 1 {
        assert ts[i] in s.terms;
      }
    }
    assert TermIds(s.terms) <= TermIds(ts) by {
      forall x | x in TermIds(s.terms) ensures x in TermIds(ts) {
        var w :| w in s.terms && w.id == x;
        assert w in ts;
      }
    }
  }

  // -----------------------------------------------------------------------
  // The uuid column's input syntax
  // -----------------------------------------------------------------------

  predicate IsHexDigit(c: char) {
    '0' <= c <= '9' || 'a' <= c <= 'f' || 'A' <= c <= 'F'
  }

  /** `n` groups of four hex digits; a single hyphen may follow any group but
      the last. */
  predicate HexGroups(s: string, n: nat)
    decreases n
  {
    if n == 0 then s == []
    else
      && |s| >= 4
      && IsHexDigit(s[0]) && IsHexDigit(s[1]) && IsHexDigit(s[2]) && IsHexDigit(s[3])
      && (if n > 1 && |s| > 4 && s[4] == '-' then HexGroups(s[5..], n - 1) else HexGroups(s[4..], n - 1))
  }

  /** The text PostgreSQL accepts for a `uuid` value (section 8.12 of the
      PostgreSQL manual): 32 hex digits in either case, a hyphen allowed after
      any group of four, the whole optionally in braces. Any other text
      compared with a `uuid` column makes the database reject the query. */
  predicate IsUuidText(s: string) {
    || HexGroups(s, 8)
    || (|s| >= 2 && s[0] == '{' && s[|s| - 1] == '}' && HexGroups(s[1..|s| - 1], 8))
  }

  lemma {:induction false} HexGroupsLength(s: string, n: nat)
    requires n >= 1 && HexGroups(s, n)
    ensures 4 * n <= |s| <= 5 * n - 1
    decreases n
  {
    if n > 1 {
      if |s| > 4 && s[4] == '-' {
        HexGroupsLength(s[5..], n - 1);
      } else {
        HexGroupsLength(s[4..], n - 1);
      }
    }
  }

  /** Accepted uuid text is 32 to 41 characters long: the 36-character
      standard form lies in between, and anything shorter, such as `abc`,
      is rejected. */
  lemma UuidTextLength(s: string)
    requires IsUuidText(s)
    ensures 32 <= |s| <= 41
  {
    if HexGroups(s, 8) {
      HexGroupsLength(s, 8);
    } else {
      HexGroupsLength(s[1..|s| - 1], 8);
    }
  }

  /** The query of `findAll(filter)`. Each field narrows the result; an
      absent or empty field does not. */
  datatype TermFilter = TermFilter(status: Option<string>, isStarred: Option<bool>, moduleId: Option<string>)

  predicate Matches(t: Term, f: TermFilter) {
    && (f.status.Some? && f.status.value != "" ==> StatusName(t.status) == f.status.value)
    && (f.isStarred.Some? ==> t.isStarred == f.isStarred.value)
    && (f.moduleId.Some? && f.moduleId.value != "" ==> t.moduleId == f.moduleId.value)
  }

  datatype TermPage = TermPage(data: seq<Term>, total: nat)

  /** `findAll(filter)`: the matching terms in table order and their count.
      A status string outside the enum, or a module id that is not uuid text,
      makes the database reject the query. */
  function FindAll(s: Store, f: TermFilter): (r: Result<TermPage>)
    ensures r.Err? <==>
              || (f.status.Some? && f.status.value != "" && ParseStatus(f.status.value).None?)
              || (f.moduleId.Some? && f.moduleId.value != "" && !IsUuidText(f.moduleId.value))
    ensures r.Err? ==> r.error == StorageError
    ensures r.Ok? ==> forall t :: t in r.value.data <==> t in s.terms && Matches(t, f)
    ensures r.Ok? ==> r.value.total == |r.value.data|
    ensures r.Ok? && DistinctIds(s.terms) ==> DistinctIds(r.value.data)
  {
    if f.status.Some? && f.status.value != "" && ParseStatus(f.status.value).None? then Err(StorageError)
    else if f.moduleId.Some? && f.moduleId.value != "" && !IsUuidText(f.moduleId.value) then Err(StorageError)
    else
      var data := Filter(s.terms, (t: Term) => Matches(t, f));
      Ok(TermPage(data, |data|))
  }

  predicate IsHexGroup(g: string) {
    |g| == 4 && IsHexDigit(g[0]) && IsHexDigit(g[1]) && IsHexDigit(g[2]) && IsHexDigit(g[3])
  }

  lemma GroupThen(g: string, rest: string, n: nat)
    requires IsHexGroup(g) && HexGroups(rest, n) && (rest == [] || rest[0] != '-')
    ensures HexGroups(g + rest, n + 1)
  {
    assert (g + rest)[4..] == rest;
  }

  lemma GroupDashThen(g: string, rest: string, n: nat)
    requires IsHexGroup(g) && n >= 1 && HexGroups(rest, n)
    ensures HexGroups(g + "-" + rest, n + 1)
  {
    assert (g + "-" + rest)[5..] == rest;
  }

  /** A module filter that is not uuid text fails in the database rather
      than matching nothing. */
  lemma MalformedModuleFilter(s: Store)
    ensures FindAll(s, TermFilter(None, None, Some("abc"))) == Err(StorageError)
  {
    if IsUuidText("abc") {
      UuidTextLength("abc");
    }
  }

  /** The standard 8-4-4-4-12 form is accepted, whatever the hex digits. */
  lemma StandardFormIsUuid(a: string, b: string, c: string, d: string, e: string, f: string, g: string, h: string)
    requires IsHexGroup(a) && IsHexGroup(b) && IsHexGroup(c) && IsHexGroup(d)
    requires IsHexGroup(e) && IsHexGroup(f) && IsHexGroup(g) && IsHexGroup(h)
    ensures IsUuidText(a + b + "-" + c + "-" + d + "-" + e + "-" + f + g + h)
  {
    assert HexGroups(h, 1) by { GroupThen(h, [], 0); assert h + [] == h; }
    assert HexGroups(g + h, 2) by { GroupThen(g, h, 1); }
    var fgh := f + (g + h);
    assert HexGroups(fgh, 3) by { GroupThen(f, g + h, 2); }
    var t4 := e + "-" + fgh;
    assert HexGroups(t4, 4) by { GroupDashThen(e, fgh, 3); }
    var t5 := d + "-" + t4;
    assert HexGroups(t5, 5) by { GroupDashThen(d, t4, 4); }
    var t6 := c + "-" + t5;
    assert HexGroups(t6, 6) by { GroupDashThen(c, t5, 5); }
    var tail := b + "-" + t6;
    assert HexGroups(tail, 7) by { GroupDashThen(b, t6, 6); }
    assert HexGroups(a + tail, 8) by { GroupThen(a, tail, 7); }
    RegroupUuid(a, b, c, d, e, f, g, h);
  }

  lemma RegroupUuid(a: string, b: string, c: string, d: string, e: string, f: string, g: string, h: string)
    ensures a + (b + "-" + (c + "-" + (d + "-" + (e + "-" + (f + (g + h))))))
         == a + b + "-" + c + "-" + d + "-" + e + "-" + f + g + h
  {
  }

  /** `findById(id)`. */
  function FindById(s: Store, id: TermId): (r: Result<Term>)
    ensures r.Err? <==> id !in TermIds(s.terms)
    ensures r.Err? ==> r.error == NotFound(TermEntity)
    ensures r.Ok? ==> r.value in s.terms && r.value.id == id
  {
    match FindTerm(s.terms, id)
    case None => Err(NotFound(TermEntity))
    case Some(t) => Ok(t)
  }

  /** The term of `id` if the caller owns its module: `NotFound` first, then
      `Forbidden`. */
  function OwnedTerm(s: Store, u: UserId, id: TermId): (r: Result<Term>)
    requires TermsHaveModules(s)
    ensures id !in TermIds(s.terms) ==> r == Err(NotFound(TermEntity))
    ensures id in TermIds(s.terms) && s.modules[FindTerm(s.terms, id).value.moduleId].ownerId != u ==>
              r == Err(Forbidden(NotOwner))
    ensures r.Ok? <==> id in TermIds(s.terms) && s.modules[FindTerm(s.terms, id).value.moduleId].ownerId == u
    ensures r.Ok? ==> r.value == FindTerm(s.terms, id).value
  {
    var t :- FindById(s, id);
    if s.modules[t.moduleId].ownerId != u then Err(Forbidden(NotOwner)) else Ok(t)
  }

  /** Replaces the row with `t.id` by `t`, in place. */
  function Replace(ts: seq<Term>, t: Term): (r: seq<Term>)
    ensures |r| == |ts|
    ensures forall i :: 0 <= i < |ts| ==> r[i] == if ts[i].id == t.id then t else ts[i]
  {
    seq(|ts|, i requires 0 <= i < |ts| => if ts[i].id == t.id then t else ts[i])
  }

  /** The fields a term update may carry; an absent field is left as it is. */
  datatype TermPatch = TermPatch(
    term: Option<string>,
    definition: Option<string>,
    status: Option<Status>,
    isStarred: Option<bool>)

  function PatchTerm(t: Term, p: TermPatch): (r: Term)
    ensures r.id == t.id && r.moduleId == t.moduleId
    ensures r.term == p.term.GetOr(t.term) && r.definition == p.definition.GetOr(t.definition)
    ensures r.status == p.status.GetOr(t.status) && r.isStarred == p.isStarred.GetOr(t.isStarred)
  {
    Term(t.id, t.moduleId, p.term.GetOr(t.term), p.definition.GetOr(t.definition),
         p.status.GetOr(t.status), p.isStarred.GetOr(t.isStarred))
  }

  /** `update(u, id, dto)`: owner only; returns the row read back. */
  function Update(s: Store, u: UserId, id: TermId, p: TermPatch): (r: Result<Step<Term>>)
    requires TermsHaveModules(s)
    ensures r.Err? <==> OwnedTerm(s, u, id).Err?
    ensures r.Err? ==> r.error == OwnedTerm(s, u, id).error
    ensures r.Ok? ==>
              && r.value.out == PatchTerm(FindTerm(s.terms, id).value, p)
              && r.value.next == s.(terms := Replace(s.terms, r.value.out))
  {
    var t :- OwnedTerm(s, u, id);
    var updated := PatchTerm(t, p);
    Ok(Step(s.(terms := Replace(s.terms, updated)), updated))
  }

  /** `updateStatus(u, id, success)`: one step of the v1 rule on the legacy
      field, saved only when it changes. No progress row is touched. */
  function UpdateStatus(s: Store, u: UserId, id: TermId, success: bool): (r: Result<Step<Term>>)
    requires TermsHaveModules(s)
    ensures r.Err? <==> OwnedTerm(s, u, id).Err?
    ensures r.Err? ==> r.error == OwnedTerm(s, u, id).error
    ensures r.Ok? ==>
              var t := FindTerm(s.terms, id).value;
              && r.value.out == t.(status := NextV1(t.status, success))
              && r.value.next.progress == s.progress && r.value.next.links == s.links
              && (r.value.out.status == t.status ==> r.value.next == s)
  {
    var t :- OwnedTerm(s, u, id);
    var status := NextV1(t.status, success);
    if status != t.status then
      var updated := t.(status := status);
      Ok(Step(s.(terms := Replace(s.terms, updated)), updated))
    else
      Ok(Step(s, t))
  }

  /** A status step is an update that sets the new status. */
  lemma UpdateStatusIsUpdate(s: Store, u: UserId, id: TermId, success: bool)
    requires TermsHaveModules(s) && DistinctIds(s.terms)
    ensures var r := UpdateStatus(s, u, id, success);
            r.Ok? ==>
              r == Update(s, u, id, TermPatch(None, None, Some(r.value.out.status), None))
  {
    var r := UpdateStatus(s, u, id, success);
    if r.Ok? {
      var t := FindTerm(s.terms, id).value;
      if r.value.out.status == t.status {
        assert Replace(s.terms, t) == s.terms by {
          forall i | 0 <= i < |s.terms| ensures Replace(s.terms, t)[i] == s.terms[i] {
            if s.terms[i].id == t.id {
              FindTermUnique(s.terms, s.terms[i]);
            }
          }
        }
      }
    }
  }

  /** `delete(u, id)`: owner only; removes the term and, by cascade, every
      user's progress row for it. */
  function Delete(s: Store, u: UserId, id: TermId): (r: Result<Step<Term>>)
    requires TermsHaveModules(s)
    ensures r.Err? <==> OwnedTerm(s, u, id).Err?
    ensures r.Err? ==> r.error == OwnedTerm(s, u, id).error
    ensures r.Ok? ==>
              && r.value.out == FindTerm(s.terms, id).value
              && r.value.next == DeleteTerm(s, id)
              && id !in TermIds(r.value.next.terms)
              && (forall k :: k in r.value.next.progress ==> k.1 != id)
  {
    var t :- OwnedTerm(s, u, id);
    Ok(Step(DeleteTerm(s, id), t))
  }

  /** A created term is found by its id. */
  lemma CreateThenFind(s: Store, u: UserId, moduleId: ModuleId, term: string, definition: string,
                       status: Option<string>, isStarred: Option<bool>, newId: TermId)
    requires DistinctIds(s.terms) && newId !in TermIds(s.terms)
    ensures var r := Create(s, u, moduleId, term, definition, status, isStarred, newId);
            r.Ok? ==> FindById(r.value.next, newId) == Ok(r.value.out)
  {
    var r := Create(s, u, moduleId, term, definition, status, isStarred, newId);
    if r.Ok? {
      var ts := r.value.next.terms;
      assert r.value.out in ts;
      forall i, j | 0 <= i < j < |ts| ensures ts[i].id != ts[j].id {
        if j == |ts| - 1 {
          assert ts[i] in s.terms;
        }
      }
      FindTermUnique(ts, r.value.out);
    }
  }

  /** A deleted term is no longer found. */
  lemma DeleteThenFind(s: Store, u: UserId, id: TermId)
    requires TermsHaveModules(s)
    ensures var r := Delete(s, u, id);
            r.Ok? ==> FindById(r.value.next, id) == Err(NotFound(TermEntity))
  {
  }
}

=== FILE: transitions.dfy ===
/** The study-attempt state machines. Two services implement them and they
    disagree on a failed attempt, so they are kept as two functions:
    `NextV2` (per-user progress, src/modules/v2/term/term-progress.service.ts)
    and `NextV1` (legacy term fields, src/modules/v1/terms/term.service.ts). */
module Transitions {
  import opened Store

  /** The position of a status on the scale not_started < in_progress < completed. */
  function Rank(s: Status): nat {
    match s
    case NotStarted => 0
    case InProgress => 1
    case Completed => 2
  }

  /** The v2 rule: success promotes one level, failure demotes one level;
      each stays put at its end of the scale. */
  function NextV2(current: Status, success: bool): (next: Status)
    ensures success ==> Rank(next) == if Rank(current) < 2 then Rank(current) + 1 else 2
    ensures !success ==> Rank(next) == if Rank(current) > 0 then Rank(current) - 1 else 0
  {
    if success then
      match current
      case NotStarted => InProgress
      case InProgress => Completed
      case Completed => current
    else
      match current
      case Completed => InProgress
      case InProgress => NotStarted
      case NotStarted => current
  }

  /** The v1 rule: success promotes one level (completed stays), failure
      always yields in_progress. */
  function NextV1(current: Status, success: bool): (next: Status)
    ensures success ==> Rank(next) == if Rank(current) < 2 then Rank(current) + 1 else 2
    ensures !success ==> next == InProgress
  {
    if success then
      match current
      case NotStarted => InProgress
      case InProgress => Completed
      case Completed => current
    else
      InProgress
  }

  /** Rank identifies the status, so the rank equations above pin both
      functions down completely. */
  lemma RankInjective(a: Status, b: Status)
    requires Rank(a) == Rank(b)
    ensures a == b
  {
  }

  /** The two rules agree on every successful attempt and on a failed attempt
      from completed; they disagree exactly on a failed attempt from
      not_started (v2 keeps it, v1 raises it to in_progress) and from
      in_progress (v2 demotes it, v1 keeps it). */
  lemma RulesDisagreeOnFailure(current: Status, success: bool)
    ensures NextV1(current, success) != NextV2(current, success) <==>
              !success && current != Completed
    ensures !success && current == NotStarted ==>
              NextV2(current, success) == NotStarted && NextV1(current, success) == InProgress
    ensures !success && current == InProgress ==>
              NextV2(current, success) == NotStarted && NextV1(current, success) == InProgress
  {
  }

  /** Under v2 a failure undoes a success, except at the top of the scale,
      and a success undoes a failure, except at the bottom. */
  lemma V2FailureUndoesSuccess(current: Status)
    ensures current != Completed ==> NextV2(NextV2(current, true), false) == current
    ensures current != NotStarted ==> NextV2(NextV2(current, false), true) == current
  {
  }

  /** Three successes from not_started pass through in_progress and completed
      and then stay at completed, under either rule. */
  lemma ThreeSuccesses()
    ensures NextV2(NotStarted, true) == InProgress
    ensures NextV2(NextV2(NotStarted, true), true) == Completed
    ensures NextV2(NextV2(NextV2(NotStarted, true), true), true) == Completed
    ensures NextV1(NextV1(NextV1(NotStarted, true), true), true) == Completed
  {
  }
}

=== FILE: views.dfy ===
/** The outward shapes of the v2 services (`TermWithProgressDto` and
    `ModuleResponseV2Dto`), restricted to the fields the model keeps. */
module Views {
  import opened Results
  import opened Store
  import opened Aggregate

  /** A term as a user sees it: its text plus that user's status and star,
      never the term's legacy fields. */
  datatype TermView = TermView(
    id: TermId,
    term: string,
    definition: string,
    status: Status,
    isStarred: bool)

  function ViewOf(t: Term, p: Progress): (v: TermView)
    ensures v.id == t.id && v.term == t.term && v.definition == t.definition
    ensures v.status == p.status && v.isStarred == p.isStarred
  {
    TermView(t.id, t.term, t.definition, p.status, p.isStarred)
  }

  /** A module as a user sees it. Owner name and picture are left out. */
  datatype ModuleView = ModuleView(
    id: ModuleId,
    slug: string,
    title: string,
    description: Option<string>,
    isPrivate: bool,
    ownerId: UserId,
    isOwner: bool,
    isCollected: bool,
    termsCount: nat,
    progress: Histogram,
    terms: Option<seq<TermView>>)
}
